=== FILE: README.md ===
# solid-data-grid-demo: a Dafny model of the layout and grouping core

This project models the pure computations behind the demo data grid.
- **Virtualisation.** Item sizes become contiguous pixel ranges. A two-phase scan finds the window of items overlapping the viewport. An axis is split into a leading frozen band, a scrollable band and a trailing frozen band (`calculateVirtualizedAreas`). The same split also exists in an older copy inside `VirtualizedGrid.tsx`, which is modelled separately.
- **Grouping tree.** `buildTree` recursively buckets items by the group-by columns, building paths and ordering siblings by the sort configuration. `flattenTree` walks the tree in pre-order, honouring expanded path keys.
- **Small utilities.** These are:
  - the number-range and multi-select filters;
  - column-template defaulting and the lazy width cell;
  - the column-resize clamp;
  - the header-plus-items row list and its fixed heights and widths;
  - column-definition flattening;
  - the array helpers;
  - the scoped class-name joiner;
  - the mock-data chunking.

Every reactive `createMemo`/`Accessor` becomes a plain function of its inputs. Pixels are unbounded integers, so `Math.floor`/`Math.ceil` are identities.

JavaScript behaviour is written out where results depend on it:
- `Array.prototype.slice` with negative or over-long bounds (`Js.Slice`).
- An out-of-range index reads `undefined` (`Js.At`). Reading a property of it throws a TypeError, modelled as `Failure(UndefinedPropertyRead)`.
- `?? 0` and `?.` are modelled as option defaults.
- Grouping by a column without `valueFromItem` calls `undefined` once there is an item to bucket, and the whole tree throws a not-a-function TypeError, `Failure(GroupByFunctionMissing)` (`Groups.BuildTreeThrowsIff`).
- String `<` compares UTF-16 code units (`GroupSort.Utf16`), so a character above U+FFFF sorts by its surrogates.

Modules follow the source files:

| module | source |
|---|---|
| `DimensionRanges` | `ElementDimensionRange.ts` |
| `VisibleWindow` | `calculateVisibleItems.ts`, and the identical local copy in `VirtualizedGrid.tsx` |
| `VirtualizedAreas` | `calculateVirtualzedAreas.ts` |
| `VirtualizedGrid` | the pure derivations of `VirtualizedGrid.tsx` |
| `Groups`, `GroupSort` | `groups.ts` |
| `Filters` | `filters.ts` |
| `GridContext` | `GridContext.tsx` |
| `ColumnTemplate` | `ColumnTemplate.tsx` |
| `DataGrid` | `Grid.tsx` |
| `GridBuilder` | `gridBuilder.tsx` |
| `ArrayHelpers` | both `arrayHelpers.ts` files |
| `Scoped` | `scoped.ts` |
| `Lazy` | `lazy.ts` |
| `MockPersons` | `MockPersons.ts` |

`Wrappers`, `Js`, `Strings` and `Columns` hold shared definitions.

Two edge behaviours of the visible-window scan:
- **The window end is inclusive.** The second scan stops only at an item whose start is strictly greater than `start + size` (calculateVisibleItems.ts:31-40). So an item starting exactly at the window end is shown (`VisibleWindow.RowStartingAtWindowEndIsShown`).
- **The fallback to index 0.** If no item ends after the window start, the first scan leaves `firstVisibleIndex` at 0 and the whole list is returned (`VisibleWindow.NothingEndingAfterStartKeepsAll`).

Group path keys join segments with `"//"`, so distinct paths can share a key (`Groups.PathKeyIsAmbiguous`).

## Model

| member | source | states |
|---|---|---|
| `DimensionRanges.Sizes` | src/lib/virtualized-grid/ElementDimensionRange.ts:5-10 | one size per item, in order, each the item's `getSize` |
| `DimensionRanges.CreateItemRanges` | src/lib/virtualized-grid/ElementDimensionRange.ts:1-26 | the ranges form a prefix layout of the item sizes: same length, `size_i = getSize(item_i)`, first start 0, `start_i = end_{i-1}`, `end_i = start_i + size_i`; the last end is the sum of all sizes; empty input gives no ranges |
| `DimensionRanges.CumulateSizes` | src/lib/virtualized-grid/VirtualizedGrid.tsx:78-90 | the local pass keeps each size and ends every range at its start plus its size; `CumulateSizesIsPrefixLayout` proves the starts chain from 0 |
| `DimensionRanges.CumulateSizesIsPrefixLayout` | src/lib/virtualized-grid/VirtualizedGrid.tsx:78-90 | the local `cumulateSizes` pass also produces a prefix layout of the sizes |
| `DimensionRanges.PrefixLayoutIsUnique` | src/lib/virtualized-grid/ElementDimensionRange.ts:14-26 | a prefix layout is determined by its sizes, so any two computations of it agree |
| `DimensionRanges.LocalCumulateSizesAgrees` | src/lib/virtualized-grid/VirtualizedGrid.tsx:112-137 | the column and row dimensions built with the local copy equal the ranges `createItemRanges` yields |
| `DimensionRanges.LayoutIsPrefixSums` | src/lib/virtualized-grid/ElementDimensionRange.ts:19-24 | the start of item i is the sum of the sizes before it and its end the sum up to and including it |
| `DimensionRanges.LayoutIsOrdered` | src/lib/virtualized-grid/ElementDimensionRange.ts:14-26 | with non-negative sizes, earlier ranges end no later than later ones start: gapless, ordered, non-overlapping |
| `DimensionRanges.LastRangeEndIsTotal` | src/lib/virtualized-grid/VirtualizedGrid.tsx:122-143 | the last range, or the `{0,0,0}` sentinel for an empty list, ends at the total of all sizes |
| `VisibleWindow.FirstEndingAfter` | src/lib/virtualized-grid/calculateVisibleItems.ts:21-29 | the first scan stops at the first item ending after the window start; every item it passes ends at or before it |
| `VisibleWindow.FirstStartingAfter` | src/lib/virtualized-grid/calculateVisibleItems.ts:31-40 | the second scan stops at the first item starting strictly after the window end; every item it passes starts at or before it |
| `VisibleWindow.VisibleItems` | src/lib/virtualized-grid/calculateVisibleItems.ts:11-51 | empty input gives an empty window, and the window is never longer than the list |
| `VisibleWindow.NothingEndingAfterStartKeepsAll` | src/lib/virtualized-grid/calculateVisibleItems.ts:18-40 | when no item ends after the window start, the whole list is returned |
| `VisibleWindow.VisibleItemsIsWindow` | src/lib/virtualized-grid/calculateVisibleItems.ts:18-49 | given the first item ending after the start and the first later item starting after the end, the result is exactly the slice between them |
| `VisibleWindow.CalculateVisibleItems` | src/lib/virtualized-grid/calculateVisibleItems.ts:11-51 | the loops compute the scan's window, which is a contiguous slice of the input in original order, empty for empty input |
| `VisibleWindow.VisibleItemsAreOverlapping` | src/lib/virtualized-grid/calculateVisibleItems.ts:18-49 | for contiguous non-negative ranges where some item ends after the start, the result is exactly the items that end after the start and begin at or before the end, in order |
| `VisibleWindow.FiveRowsExample` | src/lib/virtualized-grid/calculateVisibleItems.ts:13-49 | five rows of 30 with window start 0 and size 62 show rows 0, 1, 2 |
| `VisibleWindow.RowStartingAtWindowEndIsShown` | src/lib/virtualized-grid/calculateVisibleItems.ts:31-40 | with window `[0, 60]` the row starting at 60 is still shown |
| `VirtualizedAreas.CalculateVirtualizedAreas` | src/lib/virtualized-grid/calculateVirtualzedAreas.ts:6-118 | throws exactly when the leading count exceeds a non-empty list; otherwise frozen bands show all their items and do not scroll, offsets are 0, leading size and leading plus scrollable content, the scrollable area is what the frozen bands leave of the available size (unclamped), and its visible items are the window over the scrollable items from `scroll + leading size` |
| `VirtualizedAreas.SizeOfFirstFrozenArea` | src/lib/virtualized-grid/calculateVirtualzedAreas.ts:26-36 | the leading size; `FirstFrozenSizeThrowsIff`, `FrozenBandSizes` and `LeadingSizeIsSum` state when it throws and what it measures |
| `VirtualizedAreas.FirstFrozenSizeThrowsIff` | src/lib/virtualized-grid/calculateVirtualzedAreas.ts:26-36 | the unguarded reads throw exactly when a non-empty list has fewer items than the leading count |
| `VirtualizedAreas.SizeOfSecondFrozenArea` | src/lib/virtualized-grid/calculateVirtualzedAreas.ts:38-50 | the trailing size, never throwing; `FrozenBandSizes` and `TrailingSizeIsSum` give it as the extent, and the sum of the sizes, of the last F2 items |
| `VirtualizedAreas.SizeOfUnfrozenItems` | src/lib/virtualized-grid/calculateVirtualzedAreas.ts:56-66 | the scrollable content size; `ScrollableContentIsSum` gives it as the sum of the sizes between the frozen bands |
| `VirtualizedAreas.AreasFields` | src/lib/virtualized-grid/calculateVirtualzedAreas.ts:18-78 | band slices cut at `F1` and `N - F2`, and the three sizes are the frozen and scrollable size computations |
| `VirtualizedAreas.BandsTileItems` | src/lib/virtualized-grid/calculateVirtualzedAreas.ts:68-78 | for `F1 + F2 <= N`, the three bands concatenate to the indexed items, with `F1`, `N - F1 - F2` and `F2` items |
| `VirtualizedAreas.FrozenBandSizes` | src/lib/virtualized-grid/calculateVirtualzedAreas.ts:26-50 | leading size is `dims[F1-1].end - dims[0].start` and trailing size `dims[N-1].end - dims[N-F2].start`, each 0 for a zero count or an empty list |
| `VirtualizedAreas.BandSizesArePartialSums` | src/lib/virtualized-grid/calculateVirtualzedAreas.ts:26-66 | over a prefix layout with `F1 + F2 < N`, the band sizes are the sums of their items' sizes and add up to the last item's end |
| `VirtualizedAreas.BandSizesTotal` | src/lib/virtualized-grid/calculateVirtualzedAreas.ts:26-66 | leading, scrollable content and trailing sizes add up to the total extent |
| `VirtualizedAreas.LeadingSizeIsSum` | src/lib/virtualized-grid/calculateVirtualzedAreas.ts:26-36 | the leading size is the sum of the first `F1` sizes and never throws for `F1 <= N` |
| `VirtualizedAreas.TrailingSizeIsSum` | src/lib/virtualized-grid/calculateVirtualzedAreas.ts:38-50 | the trailing size is the sum of the last `F2` sizes |
| `VirtualizedAreas.ScrollableContentIsSum` | src/lib/virtualized-grid/calculateVirtualzedAreas.ts:56-66 | the scrollable content size is the sum of the sizes between the frozen bands |
| `VirtualizedAreas.TenColumnsExample` | src/lib/virtualized-grid/calculateVirtualzedAreas.ts:26-66 | ten 100-wide columns, 2 leading, 1 trailing, 350 available give 200 / 100 / 50 and content 700 |
| `VirtualizedAreas.ConsecutiveItemsAreContiguous` | src/lib/virtualized-grid/calculateVirtualzedAreas.ts:71-89 | any consecutive run of indexed items, the scrollable band among them, has contiguous ranges, so the window lemmas apply to it |
| `VirtualizedGrid.AxisBands` | src/lib/virtualized-grid/VirtualizedGrid.tsx:287-349 | frozen bands show all descriptors with content size equal to size; offsets 0, leading size and leading plus unfrozen content; the middle band gets what the frozen bands leave and shows the window from `scroll + leading size` |
| `VirtualizedGrid.LastUnfrozenIndex` | src/lib/virtualized-grid/VirtualizedGrid.tsx:150-153 | `N - leading - trailing`, without the `- 1`; `TrailingBandHoldsLeadingPlusTrailingMinusOne` states its effect on the trailing band |
| `VirtualizedGrid.TrailingFrozenSize` | src/lib/virtualized-grid/VirtualizedGrid.tsx:164-174 | the trailing size read; `TrailingFrozenSizeThrowsIff` states when it throws |
| `VirtualizedGrid.TrailingFrozenSizeThrowsIff` | src/lib/virtualized-grid/VirtualizedGrid.tsx:164-174 | on a non-empty list with a trailing count it throws exactly unless `2 <= leading + trailing <= N + 1`, so one trailing and no leading item already throws |
| `VirtualizedGrid.UnfrozenContentSize` | src/lib/virtualized-grid/VirtualizedGrid.tsx:180-188 | the unfrozen content size read; `UnfrozenContentSizeThrowsIff` states when it throws |
| `VirtualizedGrid.UnfrozenContentSizeThrowsIff` | src/lib/virtualized-grid/VirtualizedGrid.tsx:180-188 | on a non-empty list it throws exactly unless `leading < N` and `1 <= leading + trailing <= N`, so a grid with no frozen edge throws |
| `VirtualizedGrid.LayoutGrid` | src/lib/virtualized-grid/VirtualizedGrid.tsx:112-143 | column and row dimensions are prefix layouts of the widths and heights, and the scroll extents are their totals |
| `VirtualizedGrid.AxisBandsSucceedsWithSizes` | src/lib/virtualized-grid/VirtualizedGrid.tsx:155-188 | the band configuration exists exactly when the leading, trailing and unfrozen size reads all succeed |
| `VirtualizedGrid.PlaceCell` | src/lib/virtualized-grid/GridArea.tsx:51-63 | a cell has its column's width and its row's height, and adding the band offsets back to its position gives its column's and row's starts |
| `VirtualizedGrid.CellSitsAfterBandPredecessors` | src/lib/virtualized-grid/GridArea.tsx:39-63 | with each band's offset at the start of its first item, a cell sits after exactly the widths and heights of the band's earlier columns and rows, so the band's first cell is at the area's origin |
| `VirtualizedGrid.AxisBandsThrowsIff` | src/lib/virtualized-grid/VirtualizedGrid.tsx:148-188 | a non-empty axis throws unless `L < N`, `1 <= L + R <= N` and not (`L = 0` and `R = 1`) |
| `VirtualizedGrid.AxisBandsFields` | src/lib/virtualized-grid/VirtualizedGrid.tsx:148-203 | band slices cut at `L` and `N - L - R + 1`, sizes are the three size reads, the middle size is the viewport minus the frozen sizes, and the middle window starts at `scroll + leading size` |
| `VirtualizedGrid.TrailingBandHoldsLeadingPlusTrailingMinusOne` | src/lib/virtualized-grid/VirtualizedGrid.tsx:150-153 | the trailing band holds `L + R - 1` items, which equals `R` exactly when `L = 1` |
| `VirtualizedGrid.TrailingBandIsZeroSizedWithoutTrailingCount` | src/lib/virtualized-grid/VirtualizedGrid.tsx:164-174 | with no trailing count the trailing size is 0 although the band holds `L - 1` items |
| `VirtualizedGrid.BandsTileWhenCutsOrdered` | src/lib/virtualized-grid/VirtualizedGrid.tsx:190-203 | when the cuts are ordered, the three descriptor slices concatenate to all descriptors |
| `VirtualizedGrid.FourColumnsThreeLeftExample` | src/lib/virtualized-grid/VirtualizedGrid.tsx:150-203 | four columns with three left-frozen: column 2 is in both the left and right bands, and the right band is 0 wide |
| `VirtualizedGrid.AgreesWithPartitionerForOneLeading` | src/lib/virtualized-grid/VirtualizedGrid.tsx:148-203 | with one leading item the older derivation has the same band items, sizes and offsets as `calculateVirtualizedAreas` |
| `VirtualizedGrid.SizesAgreeForOneLeading` | src/lib/virtualized-grid/VirtualizedGrid.tsx:164-188 | with one leading item the trailing and unfrozen size reads equal the partitioner's |
| `Groups.DefaultSortGroupBy` | src/lib/data-grid/groups.ts:246-250 | a group is sorted by its last path segment, the root by `""` |
| `Groups.SortGroupByOfCurrentSort` | src/lib/data-grid/groups.ts:216-223 | the current sort's `sortGroupBy` is used exactly when there is a sort, its column is the grouping column or has `valueFromGroupRow`, and it has a `sortGroupBy` |
| `Groups.DetermineSortBy` | src/lib/data-grid/groups.ts:207-244 | the direction factor is always 1 or -1 |
| `Groups.DetermineSortByChoice` | src/lib/data-grid/groups.ts:216-238 | the sorting function is the current sort's `sortGroupBy` when it applies, else the grouping column's, else the default; the factor is -1 exactly when the first applies and the direction is descending |
| `Groups.UnsortedChildren` | src/lib/data-grid/groups.ts:84-129 | a column without `valueFromItem` throws exactly when there are items to bucket and otherwise gives no children; with `valueFromItem` the list throws exactly when some bucket's subtree throws, and otherwise holds one child group per bucket, with path `parent ++ [key]`, that bucket's items and the subtree built from the remaining columns |
| `Groups.KeyChildren` | src/lib/data-grid/groups.ts:134-145 | every child is paired, in order, with its sorting criterion |
| `Groups.BuildTree` | src/lib/data-grid/groups.ts:49-161 | a tree built without throwing is a group node at the given path over the given items |
| `Groups.BuildTreeThrowsIff` | src/lib/data-grid/groups.ts:84-129 | building throws exactly when bucketing reaches a column without `valueFromItem` while a group still holds items, whatever the path and the sort |
| `Groups.BuildTreeSucceedsWithAccessors` | src/lib/data-grid/groups.ts:79-93 | when every group-by column has a `valueFromItem`, building never throws |
| `Groups.MissingAccessorThrowsOnItems` | src/lib/data-grid/groups.ts:84-93 | a first group-by column without `valueFromItem` throws on a non-empty item list, and on an empty one gives a group without children |
| `Groups.BuiltChildrenAreSorted` | src/lib/data-grid/groups.ts:130-155 | a built group node's children are its bucket groups, keyed by their criteria and sorted in the configured direction |
| `Groups.LeafGroupListsItems` | src/lib/data-grid/groups.ts:107-117 | with no group-by column left, the children are one item node per item, in item order, carrying the parent's path |
| `Groups.GroupChildrenAreSortedBuckets` | src/lib/data-grid/groups.ts:118-155 | in a node built without throwing, with a group-by column that has `valueFromItem`, the children are a permutation of the bucket groups, one level deeper, ordered by their criteria in the configured direction |
| `Groups.BuildTreeIsWellPathed` | src/lib/data-grid/groups.ts:118-129 | in every tree built without throwing, each child group's path extends its parent's by one key and item nodes carry their parent's path |
| `Groups.RootHoldsAllItems` | src/lib/data-grid/groups.ts:41-47 | a root built without throwing has path `[]`, key `""` and all items |
| `Groups.CountryChildrenInBucketOrder` | src/lib/data-grid/groups.ts:84-129 | grouping US, US, DE, DE, DE, FR by country builds, before sorting, the groups US, DE, FR in bucket order, the US group listing its two items |
| `Groups.SortsThreeCountries` | src/lib/data-grid/groups.ts:146-153 | the ascending comparator orders criteria US, DE, FR as DE, FR, US |
| `Groups.CountryGroupingExample` | src/lib/data-grid/groups.ts:118-153 | grouping US, US, DE, DE, DE, FR by country builds without throwing and orders the groups DE, FR, US with 3, 1, 2 items |
| `Groups.Flatten` | src/lib/data-grid/groups.ts:179-200 | a listed node comes first in its own list; an excluded item node lists nothing |
| `Groups.FlattenAll` | src/lib/data-grid/groups.ts:189-197 | each sibling contributes at least itself |
| `Groups.FlattenAllOfConcat` | src/lib/data-grid/groups.ts:189-197 | flattening siblings in sequence is the concatenation of their flattenings |
| `Groups.NothingExpandedListsTopLevel` | src/lib/data-grid/groups.ts:185-199 | with nothing expanded, siblings are listed alone |
| `Groups.NothingExpandedListsRootChildren` | src/lib/data-grid/groups.ts:169-199 | without the root and with nothing expanded, the list is exactly the root's children |
| `Groups.RootExcludedStillDescends` | src/lib/data-grid/groups.ts:185-198 | without the root, its children are flattened whatever the root's own key |
| `Groups.ItemNodeIsListedAlone` | src/lib/data-grid/groups.ts:185-199 | a listed item node contributes only itself |
| `Groups.CollapsedNodeIsListedAlone` | src/lib/data-grid/groups.ts:185-188 | a listed node whose key is not expanded contributes only itself |
| `Groups.FlattenCountsNodes` | src/lib/data-grid/groups.ts:179-200 | no node is listed more often than the tree has nodes, and with every key expanded every node is listed |
| `Groups.FlattenAllCountsNodes` | src/lib/data-grid/groups.ts:189-197 | the same count bound and equality for a list of siblings |
| `Groups.FullyExpandedWithoutRoot` | src/lib/data-grid/groups.ts:169-199 | fully expanded without the root, the list has one entry per node except the root |
| `Groups.PathKeyIsAmbiguous` | src/lib/data-grid/groups.ts:203-205 | `["a//b"]` and `["a", "b"]` share a key, and so do `[]` and `[""]` |
| `Groups.PathKey` | src/lib/data-grid/groups.ts:203-205 | the segments joined with `"//"`: `""` for no segment and the segment itself for one |
| `Groups.PathKeyIsInjective` | src/lib/data-grid/groups.ts:203-205 | two non-empty paths whose segments hold no `/` have the same key only if they are equal |
| `GroupSort.CodeUnits` | src/lib/data-grid/groups.ts:146-149 | a character is one UTF-16 code unit below U+10000 and a surrogate pair above, each unit below 0x10000 |
| `GroupSort.Utf16` | src/lib/data-grid/groups.ts:146-149 | a string has at least as many code units as characters |
| `GroupSort.LexLess` | src/lib/data-grid/groups.ts:147-149 | JavaScript's `<` on two sort criteria: lexicographic order on their UTF-16 code units; the three lemmas below make it a strict total order on code units |
| `GroupSort.LexLessIsIrreflexive` | src/lib/data-grid/groups.ts:147-149 | no criterion is less than itself |
| `GroupSort.LexLessIsTransitive` | src/lib/data-grid/groups.ts:147-149 | `a < b` and `b < c` give `a < c` |
| `GroupSort.LexLessIsTotal` | src/lib/data-grid/groups.ts:147-149 | criteria with different code units are ordered one way or the other |
| `GroupSort.SurrogatePairSortsBeforeHighBmp` | src/lib/data-grid/groups.ts:146-149 | string `<` compares code units, so U+10000 sorts before U+FFFF although its code point is larger |
| `GroupSort.InOrderMeaning` | src/lib/data-grid/groups.ts:146-152 | with factor 1 the comparator orders ascending and with -1 descending |
| `GroupSort.Compare` | src/lib/data-grid/groups.ts:146-152 | the comparator; `CompareMeaning` states its meaning |
| `GroupSort.CompareMeaning` | src/lib/data-grid/groups.ts:146-152 | swapping the arguments negates the result, it is 0 exactly for equal code units, and negative exactly when `a` comes first in the direction's order |
| `GroupSort.Insert` | src/lib/data-grid/groups.ts:146-153 | one insertion step of the stable sort, one element longer; `InsertKeepsElements` and `InsertSorts` state it keeps the elements and the order |
| `GroupSort.InsertKeepsElements` | src/lib/data-grid/groups.ts:146-153 | an insertion adds exactly the inserted element to the multiset |
| `GroupSort.InsertSorts` | src/lib/data-grid/groups.ts:146-153 | inserting into a sorted list keeps it sorted |
| `GroupSort.SortKeyed` | src/lib/data-grid/groups.ts:134-153 | the sort of the keyed children, same length; `SortKeyedIsSortedPermutation` states it is a sorted permutation |
| `GroupSort.SortKeyedIsSortedPermutation` | src/lib/data-grid/groups.ts:134-153 | sorting keeps exactly the same children and orders their criteria by the comparator |
| `Filters.NumberRangeMatches` | src/lib/data-grid/filters.ts:34-40 | an item without a number never matches, and with no bounds every item with a number does; `NumberRangeMatchesIff` states the full meaning |
| `Filters.NumberRangeMatchesIff` | src/lib/data-grid/filters.ts:33-39 | an item matches exactly when it has a number at least `min` and at most `max`, a missing bound being no bound |
| `Filters.ParseMultiSelect` | src/lib/data-grid/filters.ts:53 | the parsed state is the set of the listed values |
| `Filters.SomeSelected` | src/lib/data-grid/filters.ts:59 | true exactly when some input value is selected |
| `Filters.MultiSelectMatches` | src/lib/data-grid/filters.ts:54-60 | matching throws exactly when neither an accessor nor the column's `valueFromItem` exists |
| `Filters.MultiSelectMatchesIff` | src/lib/data-grid/filters.ts:54-60 | the given accessor takes precedence over the column's, and the item matches exactly when one of its values is selected |
| `Filters.EmptySelectionMatchesNothing` | src/lib/data-grid/filters.ts:53-59 | an empty selection matches no item |
| `GridContext.BuildContext` | src/lib/data-grid/GridContext.tsx:27-36 | the context keeps key and items and holds one defaulted template per definition, in order |
| `GridContext.ContextKeepsColumnOrder` | src/lib/data-grid/GridContext.tsx:29-33 | the i-th column is the i-th definition |
| `GridContext.ResizeColumn` | src/lib/data-grid/GridContext.tsx:38-45 | a fixed width leaves the store alone; a resizable width's signal then holds at least 60, and no other signal changes |
| `GridContext.ResizeStoresClampedWidth` | src/lib/data-grid/GridContext.tsx:44 | the stored width is `max(newWidth, 60)`, so a request of at least 60 is stored exactly |
| `GridContext.ResizeIsIdempotent` | src/lib/data-grid/GridContext.tsx:38-45 | resizing twice to the same width equals resizing once |
| `GridContext.UseDataGridContext` | src/lib/data-grid/GridContext.tsx:62-69 | fails with "No datagrid provider found" exactly when nothing is provided, and otherwise returns the provided context |
| `ColumnTemplate.ResolveWidth` | src/lib/data-grid/ColumnTemplate.tsx:83-95 | undefined resolves to 200, a number and a signal to themselves, a function to its result for the column |
| `ColumnTemplate.ResolveWidthOfGivenWidth` | src/lib/data-grid/ColumnTemplate.tsx:84-89 | a width given directly resolves to itself |
| `ColumnTemplate.AddDefaults` | src/lib/data-grid/ColumnTemplate.tsx:73-102 | key and value accessor are copied, title defaults to the key, a given `Item` is kept, and the width cell starts empty |
| `ColumnTemplate.ItemDefaultsToValue` | src/lib/data-grid/ColumnTemplate.tsx:97-99 | without `Item`, a cell renders the item's value |
| `ColumnTemplate.ColumnWidth` | src/lib/data-grid/ColumnTemplate.tsx:83-95 | a width read changes only the template's width cell and returns what the cell then holds: the factory's next result when the cell was empty, the kept width otherwise |
| `ColumnTemplate.ReadWidths` | src/lib/data-grid/ColumnTemplate.tsx:83-95 | `k` reads return `k` widths |
| `ColumnTemplate.ReadWidthsCallsCell` | src/lib/data-grid/ColumnTemplate.tsx:83 | reading the width `k` times is calling the template's lazy cell `k` times |
| `ColumnTemplate.WidthIsResolvedOnce` | src/lib/data-grid/ColumnTemplate.tsx:83-95 | however often a fresh template's width is read, it is resolved once and every read returns the definition's resolved width |
| `ColumnTemplate.SecondReadKeepsWidth` | src/lib/data-grid/ColumnTemplate.tsx:83-95 | a second width read returns the first read's resolved width and leaves the template as the first read left it, the factory having run once |
| `DataGrid.Rows` | src/lib/data-grid/Grid.tsx:29-38 | the header row followed by one item row per item, in order |
| `DataGrid.ExactlyOneHeaderRow` | src/lib/data-grid/Grid.tsx:35 | the header row is at index 0 and nowhere else |
| `DataGrid.ItemsOfRows` | src/lib/data-grid/Grid.tsx:29-38 | the item rows give back exactly the items |
| `DataGrid.ColumnWidth` | src/lib/data-grid/Grid.tsx:48-50 | "Country" takes the global width and every other column is 500 |
| `DataGrid.ColumnWidths` | src/lib/data-grid/Grid.tsx:48-50 | one width per column, each the `getColumnWidth` of its title |
| `DataGrid.ColumnStarts` | src/lib/data-grid/Grid.tsx:48-50 | column i starts at the global width times the "Country" columns before it plus 500 times the other columns before it, so changing the global width moves exactly the columns after a "Country" column |
| `DataGrid.ColumnWidthsSum` | src/lib/data-grid/Grid.tsx:48-50 | the widths of the first i columns add up to the global width per "Country" column plus 500 per other column |
| `DataGrid.RowStarts` | src/lib/data-grid/Grid.tsx:51-60 | with heights 40 and 30, row i starts at 0 for the header and `40 + 30 (i - 1)` after it |
| `DataGrid.RowHeight` | src/lib/data-grid/Grid.tsx:51-60 | every row has a positive height, and the header row is exactly the one 40 high; `RowStarts` gives the resulting row starts |
| `DataGrid.DemoRowBands` | src/lib/data-grid/Grid.tsx:61 | with one top and five bottom rows, the bands exist exactly when there are no rows or at least six; with at least six the bottom holds five rows and the middle is the partitioner's |
| `DataGrid.DemoColumnBands` | src/lib/data-grid/Grid.tsx:61 | with three left columns, the bands exist exactly for no columns or more than three, and then the right band is 0 wide with two columns |
| `GridBuilder.BuildColumns` | src/lib/data-grid/gridBuilder.tsx:17-21 | no entries give no definitions |
| `GridBuilder.BuildColumnsOfConcat` | src/lib/data-grid/gridBuilder.tsx:18-21 | flattening preserves relative order: it distributes over concatenation |
| `GridBuilder.BuildColumnsLength` | src/lib/data-grid/gridBuilder.tsx:17-21 | the output length is the number of static definitions plus the lengths of the accessor lists |
| `GridBuilder.StaticStaysInPlace` | src/lib/data-grid/gridBuilder.tsx:18-20 | a static definition sits between the flattenings of the entries before and after it |
| `GridBuilder.DynamicSplicedInPlace` | src/lib/data-grid/gridBuilder.tsx:18-21 | an accessor's definitions are spliced in unchanged, in order, between the flattenings of the entries before and after it |
| `GridBuilder.AllStaticIsIdentity` | src/lib/data-grid/gridBuilder.tsx:17-21 | a list of static definitions only comes out unchanged, in order |
| `ArrayHelpers.Range` | src/lib/helpers/arrayHelpers.ts:1-7 | `range(from, to)` is `from, ..., to - 1`, of length `max(0, to - from)` |
| `ArrayHelpers.RangeIsConsecutive` | src/lib/array-helpers/arrayHelpers.ts:1-7 | neighbours in a range differ by one |
| `ArrayHelpers.RangeEmptyWhenFromNotBelowTo` | src/lib/array-helpers/arrayHelpers.ts:3 | the range is empty when `from >= to` |
| `ArrayHelpers.RangeSplits` | src/lib/helpers/arrayHelpers.ts:1-7 | adjacent ranges concatenate to the range over both |
| `ArrayHelpers.Last` | src/lib/helpers/arrayHelpers.ts:9-13 | the final element, or undefined for an empty array |
| `ArrayHelpers.LastOfPush` | src/lib/array-helpers/arrayHelpers.ts:9-13 | the last of a list after pushing `x` is `x` |
| `ArrayHelpers.SumBy` | src/lib/helpers/arrayHelpers.ts:15-25 | the loop returns the sum of `by(item)` over all items, 0 for none |
| `ArrayHelpers.KeyBy` | src/lib/helpers/arrayHelpers.ts:27-40 | the keys are exactly the computed keys, each mapped to the last item computing it |
| `Scoped.Names` | src/lib/scoped-classes/scoped.ts:6 | string arguments are kept and the result is empty exactly when none is a string |
| `Scoped.NamesOfConcat` | src/lib/scoped-classes/scoped.ts:6 | filtering keeps argument order |
| `Scoped.Prefixed` | src/lib/scoped-classes/scoped.ts:7 | every class is prefixed with the scope, in order |
| `Scoped.ScopedClasses` | src/lib/scoped-classes/scoped.ts:5-8 | no string argument gives `""` |
| `Scoped.ScopedSplitsIntoPrefixedNames` | src/lib/scoped-classes/scoped.ts:5-8 | for space-free scope and names, splitting the result on spaces gives back the prefixed names in argument order |
| `Scoped.CellActiveExample` | src/lib/scoped-classes/scoped.ts:1-10 | scope `grid-` with `cell, null, active, false` gives `grid-cell grid-active` |
| `Lazy.NewCell` | src/lib/helpers/lazy.ts:2 | a new cell is empty and has not invoked the factory |
| `Lazy.Call` | src/lib/helpers/lazy.ts:4-7 | an empty cell invokes the factory and stores its result; a filled cell stays as is; the call returns the cache |
| `Lazy.FirstCallRunsFactory` | src/lib/helpers/lazy.ts:4-6 | the first call invokes the factory once and returns its result |
| `Lazy.NonNullResultIsKept` | src/lib/helpers/lazy.ts:5-6 | after a non-null first result, every later call returns it and the factory runs only once |
| `Lazy.CachedCellIsStable` | src/lib/helpers/lazy.ts:5-6 | a filled cell never changes and always returns its cache |
| `Lazy.NullIsNeverCached` | src/lib/helpers/lazy.ts:5 | a factory returning null runs on every call |
| `MockPersons.ChunkCount` | src/lib/mock-data/MockPersons.ts:28 | the chunk count is `ceil(n / 100)` |
| `MockPersons.SizeOfChunk` | src/lib/mock-data/MockPersons.ts:35-38 | every chunk holds between 1 and 100 persons, and every chunk but the last holds 100; `LastChunkCompletesCount` shows the chunks add up to n |
| `MockPersons.LastChunkCompletesCount` | src/lib/mock-data/MockPersons.ts:35-38 | the last chunk holds between 1 and 100 persons and completes the count to `n` |
| `MockPersons.BuildPersons` | src/lib/mock-data/MockPersons.ts:23-49 | the persons are `generatePerson(0), ..., generatePerson(n - 1)` in order, with one yield per chunk |

## Left out

- Everything outside the pure computations:
  - the DOM, JSX, scroll and wheel handlers and the scroll-bar dummy in `VirtualizedGrid.tsx`;
  - the scroll effect and DOM containers of `GridArea.tsx` (only its cell placement is modelled) and the mouse-drag resize in `Cell.tsx`;
  - the cell renderers;
  - `AutoSizer.tsx`, `useElementDimensions.ts` and `consume.ts`;
  - `App.tsx` and `GridControls.tsx`.

  These are user-interface and browser plumbing. The context methods `GridControls.tsx` calls are not defined in `GridContext.tsx`.
- Solid's reactivity (`createMemo`, `mapArray`, `batch`): each derivation is a pure function of its inputs, read once.
- `indexItems.ts` is not part of this model. An indexed item is an `(item, index)` pair (`VirtualizedAreas.IndexItems`).
- `groupByMultiple`, `castArray` and `generatePerson` are not part of this model:
  - `groupByMultiple` is a parameter returning an ordered list of buckets, in `Object.keys` order;
  - value accessors return the already cast array of values;
  - `generatePerson` is a parameter.
- No aggregation code is shown, so per-group aggregations are not modelled.
- Floating point, `NaN` and infinities are not modelled:
  - pixels are integers;
  - the `-Infinity`/`Infinity` filter bounds are absent options;
  - frozen counts are absent or non-negative integers.
- `CalculateVirtualizedAreas`, `AxisBands` and the lemmas about them require one dimension range per item. In the source, both lists derive from the same rows or columns.
- `VirtualizedGrid.AgreesWithPartitionerForOneLeading`: does not restate that the middle windows agree. That follows from `VirtualizedGrid.AxisBandsFields` and `VirtualizedAreas.CalculateVirtualizedAreas`: both state the same window over equal descriptors, scroll start and size.
- `Groups.DetermineSortBy`: compares the grouping column with the sort column by key rather than by object identity, since keys identify columns.
- `GroupSort.SortKeyedIsSortedPermutation`: sort criteria are strings compared by their UTF-16 code units. A string here is a sequence of Unicode scalar values, so the lone surrogates a JavaScript string may hold are not modelled. The model does not cover `sortGroupBy` results of other types, and it does not state that sorting is stable. The insertion sort is stable, as `Array.prototype.sort` is.
- `Groups.BuildTree`: assumes that `groupByMultiple` calls its value function only for the items it buckets. So a column without `valueFromItem` throws nothing over an empty item list, and that list has no buckets.
- `Groups.KeyChildren`: a `sortGroupBy` function receives only the group row's path and items (`Columns.GroupRow`). The source (groups.ts:137-144) also passes the context, the grouping column as `template`, and the row's `pathKey` and `childNodes`. So a criterion that reads those has no counterpart here, for example one that reads `template` when the sort column's `valueFromGroupRow` selects it. The grouping and sorting lemmas hold for every criterion function, so none of them depends on this.
- `Groups.UnsortedChildren`: `valueFromItem` receives only the item. The source (groups.ts:88-92) passes `{context, item, template}`, and a value function that reads the context or the template is not modelled.
- `Filters.MultiSelectMatches`: the filter's own accessor and the column's `valueFromItem` receive only the item. The source (filters.ts:58) passes the whole filter argument `{item, state, template, context}`, and an accessor that reads the other fields is not modelled. The filter lemmas hold for every accessor.
- `Groups.Flatten`: the expanded path keys are a set of own keys. In the source, `pathKey in expandedPaths` also finds inherited properties such as `"constructor"` or `"toString"`, so a group with such a path key is always expanded there; the model lists it collapsed unless its key is in the set.
- `ArrayHelpers.KeyBy`: keys are any comparable type, and the result is a map of own keys. JavaScript's conversion of numeric keys to strings is not modelled. Neither is the key `"__proto__"`, whose assignment sets the result's prototype instead of adding a key. The third `getKey` argument (the array itself) is dropped.
- `GridContext.ResizeColumn`: takes the column's already resolved width (`ColumnTemplate.ColumnWidth` resolves it), and the signal store is a map from signal to width.
- `ColumnTemplate.ResolveWidth`: a width function receives the grid key, column key and title instead of the context and template objects.
- `ColumnTemplate.AddDefaults`: the `Item` renderer's JSX is reduced to the value it shows, and the other definition fields are not modelled.
- `DataGrid.ColumnWidth`: the global column width signal is a parameter, initially 200.
- `MockPersons.BuildPersons`: the scheduling of the generator by `consumeAsync` is left out; only the yields are counted.
- `Row.ts` and `tsUtils.ts` are types only. The row union is folded into `DataGrid.Row` and `Columns.GroupRow`.

## Findings

| source | as written | input that shows it | evidently intended | confidence | as-written member | corrected member |
|---|---|---|---|---|---|---|
| src/lib/virtualized-grid/VirtualizedGrid.tsx:150-153 | `lastUnfrozenColumnIndex = N - left - right` (and the row analogue) lacks `- 1`, so the trailing band holds `left + right - 1` items and overlaps the leading band | 4 columns, `left = 3`, no `right`: column 2 is in both the left and right bands, and the right band is 0 wide | `N - left - right - 1`, as in `calculateVirtualizedAreas`, so the bands tile the items | not executed | `VirtualizedGrid.TrailingBandHoldsLeadingPlusTrailingMinusOne` | `VirtualizedAreas.BandsTileItems` |
| src/lib/virtualized-grid/VirtualizedGrid.tsx:180-188 | with no frozen column on either side, `widthOfUnfrozenColumns` reads `columnDimensions()[N].end`, one past the end, and throws | 1 column, `frozenAreas` without `left` or `right` | the unfrozen width is the whole content width, with no exception | not executed | `VirtualizedGrid.AxisBandsThrowsIff` | `VirtualizedAreas.CalculateVirtualizedAreas` |

=== FILE: array_helpers.dfy ===
/**
 * `range`, `last`, `sumBy` and `keyBy` from the helper modules; `range` and
 * `last` exist twice in the repository, with the same text, and are modelled
 * once.
 */
module ArrayHelpers {
  import opened Wrappers
  import Js

  /** The integers `from, from + 1, …, to - 1`; empty unless `from < to`. */
  function RangeSeq(from: int, to: int): seq<int> {
    if from < to then seq(to - from, k => from + k) else []
  }

  /** `range(from, to)`: a counting loop pushing every `i` with `from <= i < to`. */
  method Range(from: int, to: int) returns (result: seq<int>)
    ensures |result| == if from < to then to - from else 0
    ensures forall k :: 0 <= k < |result| ==> result[k] == from + k
    ensures result == RangeSeq(from, to)
  {
    result := [];
    var i := from;
    while i < to
      invariant from <= i
      invariant from <= to ==> i <= to
      invariant from > to ==> i == from
      invariant |result| == i - from
      invariant forall k :: 0 <= k < |result| ==> result[k] == from + k
    {
      result := result + [i];
      i := i + 1;
    }
  }

  /** Consecutive entries of a range differ by one. */
  lemma RangeIsConsecutive(from: int, to: int, k: nat)
    requires k + 1 < |RangeSeq(from, to)|
    ensures RangeSeq(from, to)[k + 1] == RangeSeq(from, to)[k] + 1
  {
  }

  /** The loop body never runs when `from >= to`. */
  lemma RangeEmptyWhenFromNotBelowTo(from: int, to: int)
    requires from >= to
    ensures RangeSeq(from, to) == []
  {
  }

  /** Ranges over adjacent intervals concatenate. */
  lemma {:induction false} RangeSplits(from: int, mid: int, to: int)
    requires from <= mid <= to
    ensures RangeSeq(from, mid) + RangeSeq(mid, to) == RangeSeq(from, to)
  {
    var l, r, all := RangeSeq(from, mid), RangeSeq(mid, to), RangeSeq(from, to);
    assert |l + r| == |all|;
    forall k | 0 <= k < |all|
      ensures (l + r)[k] == all[k]
    {
      if k < |l| {
        assert (l + r)[k] == l[k];
      } else {
        assert (l + r)[k] == r[k - |l|];
      }
    }
  }

  /** `last(items)`: `items[items.length - 1]`, `undefined` for an empty array. */
  function Last<T>(items: seq<T>): (r: Option<T>)
    ensures |items| == 0 ==> r == None
    ensures |items| > 0 ==> r == Some(items[|items| - 1])
  {
    Js.At(items, |items| - 1)
  }

  /** The element pushed last is the one `last` returns. */
  lemma LastOfPush<T>(items: seq<T>, x: T)
    ensures Last(items + [x]) == Some(x)
  {
  }

  /** `sumBy(items, by)`, with `by` named `valueOf`: a running total over the items, starting at 0. */
  method SumBy<T>(items: seq<T>, valueOf: T -> int) returns (result: int)
    ensures result == Sum(seq(|items|, i requires 0 <= i < |items| => valueOf(items[i])))
    ensures |items| == 0 ==> result == 0
  {
    result := 0;
    ghost var values := seq(|items|, i requires 0 <= i < |items| => valueOf(items[i]));
    for i := 0 to |items|
      invariant result == Sum(values[..i])
    {
      assert values[..i + 1][..i] == values[..i];
      result := result + valueOf(items[i]);
    }
    assert values[..|items|] == values;
  }

  /**
   * `keyBy(items, getKey)`: assigns every item under its computed key, so the
   * key set is exactly the set of computed keys and every key maps to the
   * last item that produced it.
   */
  method KeyBy<T, K(==)>(items: seq<T>, getKey: (T, nat) -> K) returns (result: map<K, T>)
    ensures result.Keys == set i | 0 <= i < |items| :: getKey(items[i], i)
    ensures forall k :: k in result ==> LastWithKey(items, getKey, k, |items|, result[k])
  {
    result := map[];
    for i := 0 to |items|
      invariant result.Keys == set j | 0 <= j < i :: getKey(items[j], j)
      invariant forall k :: k in result ==> LastWithKey(items, getKey, k, i, result[k])
    {
      var key := getKey(items[i], i);
      forall k | k in result && k != key
        ensures LastWithKey(items, getKey, k, i + 1, result[k])
      {
        var j :| 0 <= j < i && getKey(items[j], j) == k && result[k] == items[j]
                 && forall l :: j < l < i ==> getKey(items[l], l) != k;
        assert forall l :: j < l < i + 1 ==> getKey(items[l], l) != k;
      }
      result := result[key := items[i]];
      assert LastWithKey(items, getKey, key, i + 1, items[i]);
    }
  }

  /** `x` is the item at the last index below `bound` whose computed key is `k`. */
  ghost predicate LastWithKey<T, K>(items: seq<T>, getKey: (T, nat) -> K, k: K, bound: nat, x: T)
    requires bound <= |items|
  {
    exists j :: 0 <= j < bound && getKey(items[j], j) == k && x == items[j]
                && forall l :: j < l < bound ==> getKey(items[l], l) != k
  }

  /** Reference sum, folding from the back. */
  function Sum(s: seq<int>): int {
    if |s| == 0 then 0 else Sum(s[..|s| - 1]) + s[|s| - 1]
  }

  lemma {:induction false} SumAppend(a: seq<int>, b: seq<int>)
    ensures Sum(a + b) == Sum(a) + Sum(b)
  {
    if |b| > 0 {
      assert (a + b)[..|a + b| - 1] == a + b[..|b| - 1];
      SumAppend(a, b[..|b| - 1]);
    } else {
      assert a + b == a;
    }
  }

  /** The sum over `s[i..j]` is the difference of the two prefix sums. */
  lemma SumOfSlice(s: seq<int>, i: nat, j: nat)
    requires i <= j <= |s|
    ensures Sum(s[i..j]) == Sum(s[..j]) - Sum(s[..i])
  {
    assert s[..j] == s[..i] + s[i..j];
    SumAppend(s[..i], s[i..j]);
  }

  lemma SumOfThreeParts(s: seq<int>, i: nat, j: nat)
    requires i <= j <= |s|
    ensures Sum(s[..i]) + Sum(s[i..j]) + Sum(s[j..]) == Sum(s)
  {
    assert s == s[..i] + s[i..j] + s[j..];
    SumAppend(s[..i], s[i..j]);
    SumAppend(s[..i] + s[i..j], s[j..]);
  }
}

=== FILE: column_template.dfy ===
/** `addDefaultsToColumnTemplateDefinition`: a column definition completed into a template. */
module ColumnTemplate {
  import opened Wrappers
  import opened Columns
  import Lazy

  /** A resolved column width: a fixed `number`, or a `Signal<number>` (identified by its store slot). */
  datatype Width = Fixed(px: int) | Resizable(signal: nat)

  /**
   * The `{ context, template }` argument of a width function, reduced to what
   * identifies the column: the grid's key and the template's key and title.
   */
  datatype ColumnArgs = ColumnArgs(gridKey: string, key: string, title: string)

  /** The optional `columnWidth` of a definition. */
  datatype WidthDefinition =
    | Unset
    | Number(px: int)
    | SignalTuple(signal: nat)
    | Computed(compute: ColumnArgs -> Width)

  /** What an `Item` renderer returns: the default fragment around a value, or other markup. */
  datatype Element = Fragment(content: Value) | Markup(html: string)

  datatype Definition<!T> = Definition(
    key: string,
    title: Option<string>,
    getValueFromItem: T -> Value,
    item: Option<T -> Element>,
    columnWidth: WidthDefinition)

  /** A completed template; its width accessor is a `lazy` cell over `widthFactory`. */
  datatype Template<!T> = Template(
    key: string,
    title: string,
    getValueFromItem: T -> Value,
    item: T -> Element,
    widthFactory: nat -> Lazy.Produced<Width>,
    widthCell: Lazy.Cell<Width>)

  const DefaultColumnWidth: int := 200

  /** The body of the `lazy` width factory: undefined → 200, number and signal as given, function called. */
  function ResolveWidth(definition: WidthDefinition, args: ColumnArgs): (w: Width)
    ensures definition.Unset? ==> w == Fixed(DefaultColumnWidth)
    ensures definition.Number? ==> w == Fixed(definition.px)
    ensures definition.SignalTuple? ==> w == Resizable(definition.signal)
    ensures definition.Computed? ==> w == definition.compute(args)
  {
    match definition
    case Unset => Fixed(DefaultColumnWidth)
    case Number(px) => Fixed(px)
    case SignalTuple(signal) => Resizable(signal)
    case Computed(compute) => compute(args)
  }

  /** The definition that states a width directly. */
  function AsDefinition(w: Width): WidthDefinition {
    match w
    case Fixed(px) => Number(px)
    case Resizable(signal) => SignalTuple(signal)
  }

  /** A width given directly resolves to itself, whatever the column. */
  lemma ResolveWidthOfGivenWidth(w: Width, args: ColumnArgs)
    ensures ResolveWidth(AsDefinition(w), args) == w
  {
  }

  /**
   * `addDefaultsToColumnTemplateDefinition(definition, context)`: key and
   * value accessor carried over, title defaulted to the key, `Item`
   * defaulted to a fragment around the item's value, and a fresh `lazy`
   * width cell whose factory resolves the definition's width.
   */
  function AddDefaults<T>(definition: Definition<T>, gridKey: string): (t: Template<T>)
    ensures t.key == definition.key
    ensures t.title == definition.title.GetOr(definition.key)
    ensures t.getValueFromItem == definition.getValueFromItem
    ensures definition.item.Some? ==> t.item == definition.item.value
    ensures t.widthCell == Lazy.NewCell()
  {
    var title := definition.title.GetOr(definition.key);
    var args := ColumnArgs(gridKey, definition.key, title);
    var item := if definition.item.Some? then definition.item.value
                else (x: T) => Fragment(definition.getValueFromItem(x));
    Template(definition.key, title, definition.getValueFromItem, item,
             (_: nat) => Lazy.Value(ResolveWidth(definition.columnWidth, args)), Lazy.NewCell())
  }

  /** Without an `Item` renderer the template renders the item's value as a fragment. */
  lemma ItemDefaultsToValue<T>(definition: Definition<T>, gridKey: string, x: T)
    requires definition.item.None?
    ensures AddDefaults(definition, gridKey).item(x) == Fragment(definition.getValueFromItem(x))
  {
  }

  /**
   * `template.columnWidth()`: one read through the template's lazy width
   * cell. Only the cell changes; the read returns what the cell then holds,
   * which is the factory's next result when the cell was empty and the kept
   * result otherwise.
   */
  function ColumnWidth<T>(t: Template<T>): (r: (Template<T>, Lazy.Produced<Width>))
    ensures r.0 == t.(widthCell := r.0.widthCell)
    ensures r.1 == r.0.widthCell.cache
    ensures t.widthCell.cache == Lazy.Null ==>
      r.1 == t.widthFactory(t.widthCell.invocations) && r.0.widthCell.invocations == t.widthCell.invocations + 1
    ensures t.widthCell.cache != Lazy.Null ==> r == (t, t.widthCell.cache)
  {
    var (cell, w) := Lazy.Call(t.widthCell, t.widthFactory);
    (t.(widthCell := cell), w)
  }

  /** `k` reads of `template.columnWidth()` in a row, with the widths they return. */
  function ReadWidths<T>(t: Template<T>, k: nat): (r: (Template<T>, seq<Lazy.Produced<Width>>))
    ensures |r.1| == k
    decreases k
  {
    if k == 0 then (t, [])
    else
      var (next, w) := ColumnWidth(t);
      var (last, ws) := ReadWidths(next, k - 1);
      (last, [w] + ws)
  }

  /** Reading the width `k` times is calling the template's lazy cell `k` times. */
  lemma {:induction false} ReadWidthsCallsCell<T>(t: Template<T>, k: nat)
    ensures ReadWidths(t, k).0 == t.(widthCell := Lazy.CallTimes(t.widthCell, t.widthFactory, k).0)
    ensures ReadWidths(t, k).1 == Lazy.CallTimes(t.widthCell, t.widthFactory, k).1
    decreases k
  {
    if k > 0 {
      ReadWidthsCallsCell(ColumnWidth(t).0, k - 1);
    }
  }

  /**
   * However often a fresh template's width is read, the width is resolved
   * once, and every read returns the resolved width (an absent width being
   * 200).
   */
  lemma WidthIsResolvedOnce<T>(definition: Definition<T>, gridKey: string, k: nat)
    requires k > 0
    ensures
      var t := AddDefaults(definition, gridKey);
      var args := ColumnArgs(gridKey, definition.key, t.title);
      var (last, results) := ReadWidths(t, k);
      && last.widthCell.invocations == 1
      && forall i :: 0 <= i < k ==> results[i] == Lazy.Value(ResolveWidth(definition.columnWidth, args))
  {
    var t := AddDefaults(definition, gridKey);
    var args := ColumnArgs(gridKey, definition.key, t.title);
    assert t.widthFactory(0) == Lazy.Value(ResolveWidth(definition.columnWidth, args));
    ReadWidthsCallsCell(t, k);
    Lazy.NonNullResultIsKept(t.widthFactory, k);
  }

  /** The second read of a fresh template's width returns the first read's width without running the factory again. */
  lemma SecondReadKeepsWidth<T>(definition: Definition<T>, gridKey: string)
    ensures
      var t := AddDefaults(definition, gridKey);
      var args := ColumnArgs(gridKey, definition.key, t.title);
      var (t1, first) := ColumnWidth(t);
      var (t2, second) := ColumnWidth(t1);
      && first == Lazy.Value(ResolveWidth(definition.columnWidth, args))
      && second == first
      && t2 == t1
      && t2.widthCell.invocations == 1
  {
  }
}

=== FILE: columns.dfy ===
/**
 * The column members the grouping and filter code reads. The template
 * produced by `addDefaultsToColumnTemplateDefinition` does not declare them;
 * callers attach them to the column objects, so each is optional here.
 */
module Columns {
  import opened Wrappers

  /** The primitive cell values: `number | string | boolean | null | undefined`. */
  datatype Value = Num(n: int) | Str(s: string) | Bool(b: bool) | Null | Undefined

  /** The `GROUP_ROW` view of a group node handed to `sortGroupBy`. */
  datatype GroupRow<T> = GroupRow(path: seq<string>, items: seq<T>)

  /**
   * A column as the grouping and filter code sees it. `valueFromItem` gives
   * the item's value or values, already wrapped into a list; `sortGroupBy`
   * gives a group row's sort criterion; of `valueFromGroupRow` only its
   * presence is ever consulted.
   */
  datatype Column<!T> = Column(
    key: string,
    valueFromItem: Option<T -> seq<Value>>,
    sortGroupBy: Option<GroupRow<T> -> string>,
    hasValueFromGroupRow: bool)
}

=== FILE: dimension_ranges.dfy ===
/**
 * Prefix-sum layout of items along one axis: every item gets a
 * `{start, size, end}` range and the ranges follow each other without gaps.
 */
module DimensionRanges {
  import ArrayHelpers

  /** `ElementDimensionRange`: one item's extent along one axis, in pixels. */
  datatype Range = Range(start: int, size: int, end: int)

  /** The `{start: 0, size: 0, end: 0}` stand-in for the last range of an empty list. */
  const EmptyRange := Range(0, 0, 0)

  /** The size of every item, in list order. */
  function Sizes<T>(items: seq<T>, getSize: T -> int): (r: seq<int>)
    ensures |r| == |items|
    ensures forall i :: 0 <= i < |items| ==> r[i] == getSize(items[i])
  {
    seq(|items|, i requires 0 <= i < |items| => getSize(items[i]))
  }

  /**
   * `ranges` lays out `sizes` back to back from 0: item i has size `sizes[i]`,
   * ends at `start + size`, and starts where item i-1 ends.
   */
  ghost predicate IsPrefixLayout(sizes: seq<int>, ranges: seq<Range>) {
    && |ranges| == |sizes|
    && (forall i :: 0 <= i < |ranges| ==> ranges[i].size == sizes[i])
    && (forall i :: 0 <= i < |ranges| ==> ranges[i].end == ranges[i].start + ranges[i].size)
    && (|ranges| > 0 ==> ranges[0].start == 0)
    && (forall i :: 0 < i < |ranges| ==> ranges[i].start == ranges[i - 1].end)
  }

  /**
   * `createItemRanges`: sizes each item, then walks the list once, starting
   * each range at the end of the previous one (the missing predecessor of
   * item 0 counts as `{start: 0, size: 0}`).
   */
  method CreateItemRanges<T>(items: seq<T>, getSize: T -> int) returns (ranges: seq<Range>)
    ensures IsPrefixLayout(Sizes(items, getSize), ranges)
    ensures |ranges| > 0 ==> ranges[|ranges| - 1].end == ArrayHelpers.Sum(Sizes(items, getSize))
    ensures |items| == 0 ==> ranges == []
  {
    ghost var sizes := Sizes(items, getSize);
    ranges := [];
    var prevStart, prevSize := 0, 0;
    var i := 0;
    while i < |items|
      invariant 0 <= i <= |items|
      invariant IsPrefixLayout(sizes[..i], ranges)
      invariant prevStart + prevSize == ArrayHelpers.Sum(sizes[..i])
      invariant i > 0 ==> prevStart == ranges[i - 1].start && prevSize == ranges[i - 1].size
    {
      var size := getSize(items[i]);
      var start := prevStart + prevSize;
      PrefixLayoutExtends(sizes, ranges, i, start);
      ranges := ranges + [Range(start, size, start + size)];
      prevStart, prevSize := start, size;
      i := i + 1;
    }
    assert sizes[..i] == sizes;
  }

  /** Appending the next item's range, started where the layout ends, keeps a prefix layout. */
  lemma PrefixLayoutExtends(sizes: seq<int>, ranges: seq<Range>, i: nat, start: int)
    requires i < |sizes|
    requires IsPrefixLayout(sizes[..i], ranges)
    requires start == if i == 0 then 0 else ranges[i - 1].end
    ensures IsPrefixLayout(sizes[..i + 1], ranges + [Range(start, sizes[i], start + sizes[i])])
    ensures ArrayHelpers.Sum(sizes[..i + 1]) == ArrayHelpers.Sum(sizes[..i]) + sizes[i]
  {
    assert sizes[..i + 1] == sizes[..i] + [sizes[i]];
    assert sizes[..i + 1][..i] == sizes[..i];
  }

  /**
   * The copy of `cumulateSizes` local to the grid component, read as a
   * recursion over the list: the last range starts at the previous range's
   * `start + size`, or at 0 when there is no previous range.
   */
  function CumulateSizes(sizes: seq<int>): (r: seq<Range>)
    ensures |r| == |sizes|
    ensures forall i :: 0 <= i < |sizes| ==> r[i].size == sizes[i] && r[i].end == r[i].start + sizes[i]
  {
    if |sizes| == 0 then []
    else
      var prefix := CumulateSizes(sizes[..|sizes| - 1]);
      var prev := if |prefix| > 0 then prefix[|prefix| - 1] else EmptyRange;
      var start := prev.start + prev.size;
      prefix + [Range(start, sizes[|sizes| - 1], start + sizes[|sizes| - 1])]
  }

  lemma {:induction false} CumulateSizesIsPrefixLayout(sizes: seq<int>)
    ensures IsPrefixLayout(sizes, CumulateSizes(sizes))
  {
    if |sizes| > 0 {
      var init := sizes[..|sizes| - 1];
      CumulateSizesIsPrefixLayout(init);
    }
  }

  /** A prefix layout is determined by its sizes. */
  lemma {:induction false} PrefixLayoutIsUnique(sizes: seq<int>, a: seq<Range>, b: seq<Range>)
    requires IsPrefixLayout(sizes, a) && IsPrefixLayout(sizes, b)
    ensures a == b
  {
    var i := 0;
    while i < |a|
      invariant 0 <= i <= |a|
      invariant a[..i] == b[..i]
    {
      if i > 0 {
        assert a[i - 1] == a[..i][i - 1] == b[..i][i - 1] == b[i - 1];
      }
      assert a[i].start == b[i].start;
      assert a[..i + 1] == a[..i] + [a[i]];
      assert b[..i + 1] == b[..i] + [b[i]];
      i := i + 1;
    }
    assert a == a[..i] && b == b[..i];
  }

  /** The grid component's local `cumulateSizes` yields exactly the ranges of `createItemRanges`. */
  lemma LocalCumulateSizesAgrees<T>(items: seq<T>, getSize: T -> int, ranges: seq<Range>)
    requires IsPrefixLayout(Sizes(items, getSize), ranges)
    ensures CumulateSizes(Sizes(items, getSize)) == ranges
  {
    CumulateSizesIsPrefixLayout(Sizes(items, getSize));
    PrefixLayoutIsUnique(Sizes(items, getSize), CumulateSizes(Sizes(items, getSize)), ranges);
  }

  /** Item i starts at the sum of the sizes before it and ends at the sum up to and including it. */
  lemma {:induction false} LayoutIsPrefixSums(sizes: seq<int>, ranges: seq<Range>, i: nat)
    requires IsPrefixLayout(sizes, ranges)
    requires i < |ranges|
    ensures ranges[i].start == ArrayHelpers.Sum(sizes[..i])
    ensures ranges[i].end == ArrayHelpers.Sum(sizes[..i + 1])
  {
    if i > 0 {
      LayoutIsPrefixSums(sizes, ranges, i - 1);
    }
    assert sizes[..i + 1][..i] == sizes[..i];
  }

  /** With non-negative sizes, every range ends no later than any later range starts. */
  lemma {:induction false} LayoutIsOrdered(sizes: seq<int>, ranges: seq<Range>, i: nat, j: nat)
    requires IsPrefixLayout(sizes, ranges)
    requires forall k :: 0 <= k < |sizes| ==> sizes[k] >= 0
    requires i < j < |ranges|
    ensures ranges[i].start <= ranges[i].end <= ranges[j].start <= ranges[j].end
  {
    if j > i + 1 {
      LayoutIsOrdered(sizes, ranges, i, j - 1);
    }
  }

  /** `last(dimensions) ?? {start: 0, size: 0, end: 0}` */
  function LastRange(ranges: seq<Range>): Range {
    ArrayHelpers.Last(ranges).GetOr(EmptyRange)
  }

  /** The last range (or the sentinel) ends at the total of all sizes, which sizes the scroll extent. */
  lemma LastRangeEndIsTotal(sizes: seq<int>, ranges: seq<Range>)
    requires IsPrefixLayout(sizes, ranges)
    ensures LastRange(ranges).end == ArrayHelpers.Sum(sizes)
    ensures |ranges| == 0 ==> LastRange(ranges) == EmptyRange
  {
    if |ranges| > 0 {
      LayoutIsPrefixSums(sizes, ranges, |ranges| - 1);
      assert sizes[..|ranges|] == sizes;
    }
  }
}

=== FILE: filters.dfy ===
/** The two column filters: an inclusive number range and a multi-select over values. */
module Filters {
  import opened Wrappers
  import opened Columns

  /** `{ min?: number; max?: number }` */
  datatype NumberRangeState = NumberRangeState(min: Option<int>, max: Option<int>)

  /** `-Infinity`, a finite number, or `Infinity`. */
  datatype Bound = NegativeInfinity | Finite(n: int) | PositiveInfinity

  predicate AtLeast(x: int, b: Bound) {
    match b
    case NegativeInfinity => true
    case Finite(n) => x >= n
    case PositiveInfinity => false
  }

  predicate AtMost(x: int, b: Bound) {
    match b
    case NegativeInfinity => false
    case Finite(n) => x <= n
    case PositiveInfinity => true
  }

  /**
   * `numberRangeFilter(numberFromItem).doesItemMatchFilter`, over the state
   * as given (its `parseFilterState` is the identity): absent bounds
   * become `-Infinity` / `Infinity`; a `null` or `undefined` number (here
   * `None`) never matches.
   */
  function NumberRangeMatches<T>(numberFromItem: T -> Option<int>, state: NumberRangeState, item: T): (r: bool)
    ensures r ==> numberFromItem(item).Some?
    ensures state.min.None? && state.max.None? ==> (r <==> numberFromItem(item).Some?)
  {
    var number := numberFromItem(item);
    var min := if state.min.Some? then Finite(state.min.value) else NegativeInfinity;
    var max := if state.max.Some? then Finite(state.max.value) else PositiveInfinity;
    if number.None? then false
    else AtLeast(number.value, min) && AtMost(number.value, max)
  }

  /** An item matches exactly when it has a number within the given bounds, both inclusive, an absent bound being no bound. */
  lemma NumberRangeMatchesIff<T>(numberFromItem: T -> Option<int>, state: NumberRangeState, item: T)
    ensures NumberRangeMatches(numberFromItem, state, item) <==>
      var number := numberFromItem(item);
      && number.Some?
      && (state.min.None? || state.min.value <= number.value)
      && (state.max.None? || number.value <= state.max.value)
  {
  }

  /** `multiSelectFilter(...).parseFilterState`: `new Set(state)`. */
  function ParseMultiSelect(state: seq<Value>): (r: set<Value>)
    ensures forall v :: v in r <==> v in state
  {
    set i | 0 <= i < |state| :: state[i]
  }

  /** `input.some(i => selected.has(i))` */
  function SomeSelected(input: seq<Value>, selected: set<Value>): (r: bool)
    ensures r <==> exists i :: 0 <= i < |input| && input[i] in selected
  {
    if |input| == 0 then false
    else input[0] in selected || SomeSelected(input[1..], selected)
  }

  const NotAFunction: string := "TypeError: retrieveInput is not a function"

  /**
   * `multiSelectFilter(accessor).doesItemMatchFilter`: the filter's own
   * accessor if given, else the column's `valueFromItem`; with neither,
   * calling `undefined` throws.
   */
  function MultiSelectMatches<T>(accessor: Option<T -> seq<Value>>, column: Column<T>, selected: set<Value>, item: T)
    : (r: Result<bool>)
    ensures r.Failure? <==> accessor.None? && column.valueFromItem.None?
  {
    var retrieveInput := if accessor.Some? then accessor else column.valueFromItem;
    match retrieveInput
    case None => Failure(NotAFunction)
    case Some(retrieve) => Success(SomeSelected(retrieve(item), selected))
  }

  /**
   * An item matches exactly when one of its values (from the filter's
   * accessor, which takes precedence over the column's) was selected.
   */
  lemma MultiSelectMatchesIff<T>(accessor: Option<T -> seq<Value>>, column: Column<T>, selected: set<Value>, item: T)
    requires accessor.Some? || column.valueFromItem.Some?
    ensures
      var input := if accessor.Some? then accessor.value(item) else column.valueFromItem.value(item);
      MultiSelectMatches(accessor, column, selected, item) == Success(exists i :: 0 <= i < |input| && input[i] in selected)
  {
  }

  /** Selecting nothing filters out every item. */
  lemma EmptySelectionMatchesNothing<T>(accessor: Option<T -> seq<Value>>, column: Column<T>, item: T)
    requires accessor.Some? || column.valueFromItem.Some?
    ensures MultiSelectMatches(accessor, column, ParseMultiSelect([]), item) == Success(false)
  {
  }
}

=== FILE: grid.dfy ===
/**
 * The `DataGrid` component's inputs to the virtualized grid: a header row
 * above the item rows, fixed row heights, the column-width rule and the
 * fixed frozen areas.
 */
module DataGrid {
  import opened Wrappers
  import ArrayHelpers
  import opened DimensionRanges
  import opened VirtualizedAreas
  import opened VirtualizedGrid

  /** `Row<TItem>`: the header row or one item's row. */
  datatype Row<T> = HeaderRow | ItemRow(item: T)

  /** The `rows` memo: one item row per item, with the header row put in front. */
  function Rows<T>(items: seq<T>): (r: seq<Row<T>>)
    ensures |r| == |items| + 1
    ensures r[0] == HeaderRow
    ensures forall i :: 0 <= i < |items| ==> r[i + 1] == ItemRow(items[i])
  {
    [HeaderRow] + seq(|items|, i requires 0 <= i < |items| => ItemRow(items[i]))
  }

  /** The items carried by the item rows, in row order. */
  function ItemsOf<T>(rows: seq<Row<T>>): seq<T> {
    if |rows| == 0 then []
    else (if rows[0].ItemRow? then [rows[0].item] else []) + ItemsOf(rows[1..])
  }

  /** The header row is at index 0 and nowhere else. */
  lemma ExactlyOneHeaderRow<T>(items: seq<T>, i: nat)
    requires i < |Rows(items)|
    ensures Rows(items)[i].HeaderRow? <==> i == 0
  {
    if i > 0 {
      assert Rows(items)[i] == ItemRow(items[i - 1]);
    }
  }

  /** Reading the items back off the rows gives the items, in order: no item is lost, added or moved. */
  lemma ItemsOfRows<T>(items: seq<T>)
    ensures ItemsOf(Rows(items)) == items
  {
    assert Rows(items)[1..] == seq(|items|, i requires 0 <= i < |items| => ItemRow(items[i]));
    ItemsOfItemRows(items);
  }

  lemma {:induction false} ItemsOfItemRows<T>(items: seq<T>)
    ensures ItemsOf(seq(|items|, i requires 0 <= i < |items| => ItemRow(items[i]))) == items
    decreases |items|
  {
    if |items| > 0 {
      var rows := seq(|items|, i requires 0 <= i < |items| => ItemRow(items[i]));
      assert rows[1..] == seq(|items[1..]|, i requires 0 <= i < |items[1..]| => ItemRow(items[1..][i]));
      ItemsOfItemRows(items[1..]);
      assert [items[0]] + items[1..] == items;
    }
  }

  const HeaderRowHeight: int := 40
  const ItemRowHeight: int := 30

  /** `getRowHeight` */
  function RowHeight<T>(row: Row<T>): (r: int)
    ensures 0 < r
    ensures row.HeaderRow? <==> r == HeaderRowHeight
  {
    match row
    case HeaderRow => HeaderRowHeight
    case ItemRow(_) => ItemRowHeight
  }

  /** The initial value of the global `dataGridColumnWidth` signal. */
  const InitialGlobalColumnWidth: int := 200

  /** `getColumnWidth`: the global width for the "Country" column, 500 for every other. */
  function ColumnWidth(title: string, globalColumnWidth: int): (w: int)
    ensures title == "Country" ==> w == globalColumnWidth
    ensures title != "Country" ==> w == 500
  {
    if title == "Country" then globalColumnWidth else 500
  }

  /** The widths `getColumnWidth` gives columns with these titles, in order. */
  function ColumnWidths(titles: seq<string>, globalColumnWidth: int): (r: seq<int>)
    ensures |r| == |titles|
    ensures forall i :: 0 <= i < |titles| ==> r[i] == ColumnWidth(titles[i], globalColumnWidth)
  {
    Sizes(titles, (t: string) => ColumnWidth(t, globalColumnWidth))
  }

  /** How many of the titles are "Country". */
  function CountryCount(titles: seq<string>): (n: nat)
    ensures n <= |titles|
  {
    if |titles| == 0 then 0
    else CountryCount(titles[..|titles| - 1]) + (if titles[|titles| - 1] == "Country" then 1 else 0)
  }

  /**
   * Column `i` starts after the columns before it: the global width for each
   * "Country" column among them and 500 for every other one. So changing the
   * global width moves only the columns after a "Country" column.
   */
  lemma ColumnStarts(titles: seq<string>, globalColumnWidth: int, i: nat)
    requires i < |titles|
    ensures
      var dims := CumulateSizes(ColumnWidths(titles, globalColumnWidth));
      var country := CountryCount(titles[..i]);
      dims[i].start == globalColumnWidth * country + 500 * (i - country)
  {
    var sizes := ColumnWidths(titles, globalColumnWidth);
    CumulateSizesIsPrefixLayout(sizes);
    LayoutIsPrefixSums(sizes, CumulateSizes(sizes), i);
    ColumnWidthsSum(titles, globalColumnWidth, i);
  }

  lemma {:induction false} ColumnWidthsSum(titles: seq<string>, globalColumnWidth: int, i: nat)
    requires i <= |titles|
    ensures
      var country := CountryCount(titles[..i]);
      ArrayHelpers.Sum(ColumnWidths(titles, globalColumnWidth)[..i])
      == globalColumnWidth * country + 500 * (i - country)
  {
    if i > 0 {
      var sizes := ColumnWidths(titles, globalColumnWidth);
      ColumnWidthsSum(titles, globalColumnWidth, i - 1);
      assert sizes[..i][..i - 1] == sizes[..i - 1];
      assert titles[..i][..i - 1] == titles[..i - 1];
      var before := CountryCount(titles[..i - 1]);
      var sumBefore := ArrayHelpers.Sum(sizes[..i - 1]);
      assert ArrayHelpers.Sum(sizes[..i]) == sumBefore + sizes[i - 1];
      if titles[i - 1] == "Country" {
        assert CountryCount(titles[..i]) == before + 1;
        assert sizes[i - 1] == globalColumnWidth;
        MulStep(globalColumnWidth, before);
      } else {
        assert CountryCount(titles[..i]) == before;
        assert sizes[i - 1] == 500;
      }
    }
  }

  lemma MulStep(g: int, c: nat)
    ensures g * (c + 1) == g * c + g
  {
  }

  /** `{ top: 1, left: 3, bottom: 5 }`; no column is frozen on the right. */
  const DemoFrozenAreas: FrozenAreas := FrozenAreas(Some(1), None, Some(5), Some(3))

  /** Row `i` starts below the header and `i - 1` item rows. */
  lemma RowStarts<T>(items: seq<T>, i: nat)
    requires i < |items| + 1
    ensures
      var dims := CumulateSizes(Sizes(Rows(items), RowHeight));
      dims[i].start == if i == 0 then 0 else HeaderRowHeight + ItemRowHeight * (i - 1)
  {
    var sizes := Sizes(Rows(items), RowHeight);
    CumulateSizesIsPrefixLayout(sizes);
    LayoutIsPrefixSums(sizes, CumulateSizes(sizes), i);
    RowHeightsSum(items, i);
  }

  lemma {:induction false} RowHeightsSum<T>(items: seq<T>, i: nat)
    requires i <= |items| + 1
    ensures ArrayHelpers.Sum(Sizes(Rows(items), RowHeight)[..i])
            == if i == 0 then 0 else HeaderRowHeight + ItemRowHeight * (i - 1)
  {
    if i > 0 {
      var sizes := Sizes(Rows(items), RowHeight);
      RowHeightsSum(items, i - 1);
      assert sizes[..i][..i - 1] == sizes[..i - 1];
      var sumBefore := ArrayHelpers.Sum(sizes[..i - 1]);
      assert ArrayHelpers.Sum(sizes[..i]) == sumBefore + sizes[i - 1];
      if i > 1 {
        assert Rows(items)[i - 1] == ItemRow(items[i - 2]);
        assert sizes[i - 1] == ItemRowHeight;
        MulStep(ItemRowHeight, i - 2);
      } else {
        assert sizes[0] == HeaderRowHeight;
      }
    }
  }

  /**
   * The demo's row bands: one row frozen at the top and five at the bottom.
   * The band arithmetic throws unless there are no rows or at least six;
   * then the bottom band holds the last five rows and, with one top row, the
   * legacy arithmetic agrees with `calculateVirtualizedAreas`.
   */
  lemma DemoRowBands<R>(rows: seq<R>, dims: seq<Range>, height: int, scrollTop: int)
    requires |dims| == |rows|
    ensures
      var top, bottom := Edge(Some(DemoFrozenAreas), Top), Edge(Some(DemoFrozenAreas), Bottom);
      var a := AxisBands(top, bottom, rows, dims, height, scrollTop);
      && (a.Success? <==> |rows| == 0 || |rows| >= 6)
      && (|rows| >= 6 ==>
            && |a.value.trailing.descriptors| == 5
            && a.value.mid.descriptors
               == CalculateVirtualizedAreas(Some(top), Some(bottom), dims, height, rows, scrollTop).value.unfrozen.indexedItems)
  {
    AxisBandsThrowsIff(1, 5, rows, dims, height, scrollTop);
    if |rows| >= 6 {
      TrailingBandHoldsLeadingPlusTrailingMinusOne(1, 5, rows, dims, height, scrollTop);
      AgreesWithPartitionerForOneLeading(5, rows, dims, height, scrollTop);
    }
  }

  /**
   * The demo's column bands: three columns frozen on the left and none on the
   * right. The band arithmetic throws unless there are no columns or more
   * than three, and then the right band has width 0 yet holds two columns.
   */
  lemma DemoColumnBands<C>(columns: seq<C>, dims: seq<Range>, width: int, scrollLeft: int)
    requires |dims| == |columns|
    ensures
      var left, right := Edge(Some(DemoFrozenAreas), Left), Edge(Some(DemoFrozenAreas), Right);
      var a := AxisBands(left, right, columns, dims, width, scrollLeft);
      && (a.Success? <==> |columns| == 0 || |columns| > 3)
      && (|columns| > 3 ==> a.value.trailing.size == 0 && |a.value.trailing.descriptors| == 2)
  {
    AxisBandsThrowsIff(3, 0, columns, dims, width, scrollLeft);
    if |columns| > 3 {
      TrailingBandIsZeroSizedWithoutTrailingCount(3, columns, dims, width, scrollLeft);
    }
  }
}

=== FILE: grid_builder.dfy ===
/** `createGridBuilder().buildColumns`: static definitions and definition lists flattened in order. */
module GridBuilder {
  import ArrayHelpers

  /** One argument entry: a definition, or an accessor (given by the list it currently returns). */
  datatype Entry<D> = Static(definition: D) | Dynamic(definitions: seq<D>)

  function Expand<D>(e: Entry<D>): seq<D> {
    match e
    case Static(d) => [d]
    case Dynamic(ds) => ds
  }

  /** How many definitions one entry contributes. */
  function EntryLength<D>(e: Entry<D>): nat {
    |Expand(e)|
  }

  /** `definitions.flatMap(d => typeof d === "function" ? d() : d)`. */
  function BuildColumns<D>(entries: seq<Entry<D>>): (r: seq<D>)
    ensures entries == [] ==> r == []
  {
    if |entries| == 0 then []
    else BuildColumns(entries[..|entries| - 1]) + Expand(entries[|entries| - 1])
  }

  /** Flattening distributes over concatenation, so entries keep their relative order. */
  lemma {:induction false} BuildColumnsOfConcat<D>(a: seq<Entry<D>>, b: seq<Entry<D>>)
    ensures BuildColumns(a + b) == BuildColumns(a) + BuildColumns(b)
    decreases |b|
  {
    if |b| > 0 {
      assert (a + b)[..|a + b| - 1] == a + b[..|b| - 1];
      BuildColumnsOfConcat(a, b[..|b| - 1]);
    } else {
      assert a + b == a;
    }
  }

  /** The output holds one definition per static entry plus every accessor's list. */
  lemma {:induction false} BuildColumnsLength<D>(entries: seq<Entry<D>>)
    ensures |BuildColumns(entries)| == ArrayHelpers.Sum(seq(|entries|, i requires 0 <= i < |entries| => EntryLength(entries[i])))
    decreases |entries|
  {
    if |entries| > 0 {
      var init := entries[..|entries| - 1];
      BuildColumnsLength(init);
      var lengths := seq(|entries|, i requires 0 <= i < |entries| => EntryLength(entries[i]));
      assert lengths[..|entries| - 1] == seq(|init|, i requires 0 <= i < |init| => EntryLength(init[i]));
    }
  }

  /**
   * A static definition stays in place: it is preceded exactly by what the
   * entries before it flatten to, and followed by what the entries after it
   * flatten to.
   */
  lemma StaticStaysInPlace<D>(entries: seq<Entry<D>>, i: nat)
    requires i < |entries| && entries[i].Static?
    ensures BuildColumns(entries)
            == BuildColumns(entries[..i]) + [entries[i].definition] + BuildColumns(entries[i + 1..])
  {
    var before, here, after := entries[..i], [entries[i]], entries[i + 1..];
    assert entries == before + here + after;
    assert BuildColumns(here) == [entries[i].definition] by {
      assert here[..0] == [];
    }
    BuildColumnsOfConcat(before, here);
    BuildColumnsOfConcat(before + here, after);
  }

  /**
   * An accessor's list is spliced in as it is: it is preceded exactly by what
   * the entries before it flatten to, and followed by what the entries after
   * it flatten to.
   */
  lemma DynamicSplicedInPlace<D>(entries: seq<Entry<D>>, i: nat)
    requires i < |entries| && entries[i].Dynamic?
    ensures BuildColumns(entries)
            == BuildColumns(entries[..i]) + entries[i].definitions + BuildColumns(entries[i + 1..])
  {
    var before, here, after := entries[..i], [entries[i]], entries[i + 1..];
    assert entries == before + here + after;
    assert BuildColumns(here) == entries[i].definitions by {
      assert here[..0] == [];
    }
    BuildColumnsOfConcat(before, here);
    BuildColumnsOfConcat(before + here, after);
  }

  /** Without accessors the output is the definitions themselves, in order. */
  lemma {:induction false} AllStaticIsIdentity<D>(entries: seq<Entry<D>>)
    requires forall i :: 0 <= i < |entries| ==> entries[i].Static?
    ensures BuildColumns(entries) == seq(|entries|, i requires 0 <= i < |entries| => entries[i].definition)
    decreases |entries|
  {
    if |entries| > 0 {
      AllStaticIsIdentity(entries[..|entries| - 1]);
    }
  }
}

=== FILE: grid_context.dfy ===
/** `DataGridContext`: the grid's completed columns, the resize clamp and the provider lookup. */
module GridContext {
  import opened Wrappers
  import opened ColumnTemplate

  datatype DataGridContext<!T> = DataGridContext(gridKey: string, columns: seq<Template<T>>, items: seq<T>)

  /** The constructor: every definition completed by `addDefaultsToColumnTemplateDefinition`, in order. */
  function BuildContext<T>(gridKey: string, definitions: seq<Definition<T>>, items: seq<T>): (c: DataGridContext<T>)
    ensures c.gridKey == gridKey && c.items == items
    ensures |c.columns| == |definitions|
    ensures forall i :: 0 <= i < |definitions| ==> c.columns[i] == AddDefaults(definitions[i], gridKey)
  {
    DataGridContext(gridKey, seq(|definitions|, i requires 0 <= i < |definitions| => AddDefaults(definitions[i], gridKey)), items)
  }

  /** The context lists its columns under their definitions' keys, in definition order. */
  lemma ContextKeepsColumnOrder<T>(gridKey: string, definitions: seq<Definition<T>>, items: seq<T>, i: nat)
    requires i < |definitions|
    ensures BuildContext(gridKey, definitions, items).columns[i].key == definitions[i].key
  {
  }

  /** The current value of every width signal, by slot. */
  type SignalStore = map<nat, int>

  const MinColumnWidth: int := 60

  /** `resizeColumn` on the column's (already read) width: fixed widths ignore it, signals get the clamped width. */
  function ResizeColumn(store: SignalStore, width: Width, newWidth: int): (r: SignalStore)
    ensures width.Fixed? ==> r == store
    ensures width.Resizable? ==> width.signal in r && r[width.signal] >= MinColumnWidth
    ensures width.Resizable? ==> r.Keys == store.Keys + {width.signal}
    ensures forall s :: s in store && (width.Fixed? || s != width.signal) ==> s in r && r[s] == store[s]
  {
    match width
    case Fixed(_) => store
    case Resizable(signal) => store[signal := if newWidth > MinColumnWidth then newWidth else MinColumnWidth]
  }

  /** A request at or above the minimum is stored exactly; below it, the minimum is stored. */
  lemma ResizeStoresClampedWidth(store: SignalStore, signal: nat, newWidth: int)
    ensures ResizeColumn(store, Resizable(signal), newWidth)[signal]
            == if newWidth >= MinColumnWidth then newWidth else MinColumnWidth
  {
  }

  /** Resizing twice to the same width leaves the store as resizing once does. */
  lemma ResizeIsIdempotent(store: SignalStore, width: Width, newWidth: int)
    ensures ResizeColumn(ResizeColumn(store, width, newWidth), width, newWidth) == ResizeColumn(store, width, newWidth)
  {
  }

  const NoProviderMessage: string := "No datagrid provider found"

  /** `useDataGridContext`: the provided context, or the missing-provider error. */
  function UseDataGridContext<T>(provided: Option<DataGridContext<T>>): (r: Result<DataGridContext<T>>)
    ensures r.Success? <==> provided.Some?
    ensures r.Success? ==> r.value == provided.value
    ensures r.Failure? ==> r.error == NoProviderMessage
  {
    match provided
    case None => Failure(NoProviderMessage)
    case Some(c) => Success(c)
  }
}

=== FILE: group_sort.dfy ===
/**
 * The sibling sort of `buildTree`: `Array.prototype.sort` (stable) with the
 * comparator that orders sort criteria by JavaScript's `<` on strings,
 * scaled by the direction factor.
 */
module GroupSort {

  /** A node paired with its `sortingCriteria`. */
  datatype Keyed<X> = Keyed(value: X, criterion: string)

  /** The UTF-16 code units of one character: one below U+10000, else a surrogate pair. */
  function CodeUnits(c: char): (r: seq<int>)
    ensures 1 <= |r| <= 2
    ensures forall i :: 0 <= i < |r| ==> 0 <= r[i] < 0x1_0000
    ensures (c as int < 0x1_0000) <==> |r| == 1
  {
    var v := c as int;
    if v < 0x1_0000 then [v]
    else [0xD800 + (v - 0x1_0000) / 0x400, 0xDC00 + (v - 0x1_0000) % 0x400]
  }

  /** A string as JavaScript stores it: the UTF-16 code units of its characters, in order. */
  function Utf16(s: string): (r: seq<int>)
    ensures |r| >= |s|
  {
    if |s| == 0 then [] else CodeUnits(s[0]) + Utf16(s[1..])
  }

  /** Lexicographic order on code unit sequences: a proper prefix comes first. */
  predicate UnitsLess(a: seq<int>, b: seq<int>) {
    if |a| == 0 then |b| > 0
    else if |b| == 0 then false
    else if a[0] == b[0] then UnitsLess(a[1..], b[1..])
    else a[0] < b[0]
  }

  /** JavaScript's `a < b` on strings: lexicographic order on their UTF-16 code units. */
  predicate LexLess(a: string, b: string) {
    UnitsLess(Utf16(a), Utf16(b))
  }

  lemma {:induction false} UnitsLessIsIrreflexive(a: seq<int>)
    ensures !UnitsLess(a, a)
  {
    if |a| > 0 {
      UnitsLessIsIrreflexive(a[1..]);
    }
  }

  lemma {:induction false} UnitsLessIsTransitive(a: seq<int>, b: seq<int>, c: seq<int>)
    requires UnitsLess(a, b) && UnitsLess(b, c)
    ensures UnitsLess(a, c)
  {
    if |a| > 0 && |b| > 0 && |c| > 0 && a[0] == b[0] && b[0] == c[0] {
      UnitsLessIsTransitive(a[1..], b[1..], c[1..]);
    }
  }

  /** Distinct code unit sequences are always ordered one way or the other. */
  lemma {:induction false} UnitsLessIsTotal(a: seq<int>, b: seq<int>)
    requires a != b
    ensures UnitsLess(a, b) || UnitsLess(b, a)
  {
    if |a| > 0 && |b| > 0 && a[0] == b[0] {
      assert a == [a[0]] + a[1..] && b == [b[0]] + b[1..];
      UnitsLessIsTotal(a[1..], b[1..]);
    }
  }

  lemma LexLessIsIrreflexive(a: string)
    ensures !LexLess(a, a)
  {
    UnitsLessIsIrreflexive(Utf16(a));
  }

  lemma LexLessIsTransitive(a: string, b: string, c: string)
    requires LexLess(a, b) && LexLess(b, c)
    ensures LexLess(a, c)
  {
    UnitsLessIsTransitive(Utf16(a), Utf16(b), Utf16(c));
  }

  /** Strings with different code units are always ordered one way or the other. */
  lemma LexLessIsTotal(a: string, b: string)
    requires Utf16(a) != Utf16(b)
    ensures LexLess(a, b) || LexLess(b, a)
  {
    UnitsLessIsTotal(Utf16(a), Utf16(b));
  }

  /**
   * The order is by code unit, not by code point: U+10000 is stored as the
   * surrogates D800 DC00 and so sorts before U+FFFF.
   */
  lemma SurrogatePairSortsBeforeHighBmp()
    ensures LexLess("\U{10000}", "\U{FFFF}")
    ensures !LexLess("\U{FFFF}", "\U{10000}")
    ensures ("\U{10000}"[0] as int) > ("\U{FFFF}"[0] as int)
  {
    assert Utf16("\U{10000}") == [0xD800, 0xDC00];
    assert Utf16("\U{FFFF}") == [0xFFFF];
  }

  /** The comparator `(a, b) => a < b ? -factor : b < a ? factor : 0`. */
  function Compare(a: string, b: string, factor: int): int {
    if LexLess(a, b) then -1 * factor
    else if LexLess(b, a) then 1 * factor
    else 0
  }

  /**
   * The comparator is a three-way comparison: swapping its arguments negates
   * it, it is 0 exactly for strings with the same code units, and it is
   * negative when `a` comes first in the direction's order.
   */
  lemma CompareMeaning(a: string, b: string, factor: int)
    requires factor == 1 || factor == -1
    ensures Compare(a, b, factor) == -Compare(b, a, factor)
    ensures Compare(a, b, factor) == 0 <==> Utf16(a) == Utf16(b)
    ensures Compare(a, b, factor) < 0 <==> if factor == 1 then LexLess(a, b) else LexLess(b, a)
  {
    if Utf16(a) == Utf16(b) {
      UnitsLessIsIrreflexive(Utf16(a));
    } else {
      LexLessIsTotal(a, b);
      if LexLess(a, b) && LexLess(b, a) {
        LexLessIsTransitive(a, b, a);
        LexLessIsIrreflexive(a);
      }
    }
  }

  /** `a` may stay in front of `b`: the comparator does not ask to swap them. */
  predicate InOrder(a: string, b: string, factor: int) {
    Compare(a, b, factor) <= 0
  }

  /** Factor 1 orders ascending, factor -1 descending. */
  lemma InOrderMeaning(a: string, b: string, factor: int)
    requires factor == 1 || factor == -1
    ensures factor == 1 ==> (InOrder(a, b, factor) <==> !LexLess(b, a))
    ensures factor == -1 ==> (InOrder(a, b, factor) <==> !LexLess(a, b))
  {
    if LexLess(a, b) && LexLess(b, a) {
      LexLessIsTransitive(a, b, a);
      LexLessIsIrreflexive(a);
    }
  }

  lemma InOrderIsTotal(a: string, b: string, factor: int)
    requires factor == 1 || factor == -1
    ensures InOrder(a, b, factor) || InOrder(b, a, factor)
  {
    InOrderMeaning(a, b, factor);
    InOrderMeaning(b, a, factor);
    if LexLess(a, b) && LexLess(b, a) {
      LexLessIsTransitive(a, b, a);
      LexLessIsIrreflexive(a);
    }
  }

  lemma InOrderIsTransitive(a: string, b: string, c: string, factor: int)
    requires factor == 1 || factor == -1
    requires InOrder(a, b, factor) && InOrder(b, c, factor)
    ensures InOrder(a, c, factor)
  {
    InOrderMeaning(a, b, factor);
    InOrderMeaning(b, c, factor);
    InOrderMeaning(a, c, factor);
    if factor == 1 && LexLess(c, a) {
      if Utf16(a) != Utf16(b) {
        LexLessIsTotal(a, b);
        LexLessIsTransitive(c, a, b);
      }
    } else if factor == -1 && LexLess(a, c) {
      if Utf16(b) != Utf16(c) {
        LexLessIsTotal(b, c);
        LexLessIsTransitive(a, c, b);
      }
    }
  }

  /** No later element is one the comparator puts strictly before an earlier one. */
  ghost predicate Sorted<X>(s: seq<Keyed<X>>, factor: int) {
    forall i, j :: 0 <= i < j < |s| ==> InOrder(s[i].criterion, s[j].criterion, factor)
  }

  /** Puts `x` in front of the first element it may precede; equal criteria keep `x` first. */
  function Insert<X>(x: Keyed<X>, s: seq<Keyed<X>>, factor: int): (r: seq<Keyed<X>>)
    ensures |r| == |s| + 1
  {
    if |s| == 0 then [x]
    else if InOrder(x.criterion, s[0].criterion, factor) then [x] + s
    else [s[0]] + Insert(x, s[1..], factor)
  }

  /** Stable insertion sort: elements are inserted back to front. */
  function SortKeyed<X>(s: seq<Keyed<X>>, factor: int): (r: seq<Keyed<X>>)
    ensures |r| == |s|
  {
    if |s| == 0 then [] else Insert(s[0], SortKeyed(s[1..], factor), factor)
  }

  lemma {:induction false} InsertKeepsElements<X>(x: Keyed<X>, s: seq<Keyed<X>>, factor: int)
    ensures multiset(Insert(x, s, factor)) == multiset(s) + multiset{x}
  {
    if |s| > 0 && !InOrder(x.criterion, s[0].criterion, factor) {
      InsertKeepsElements(x, s[1..], factor);
      assert s == [s[0]] + s[1..];
    }
  }

  /** An element that may precede every element of a sorted list can go in front of it. */
  lemma ConsSorted<X>(h: Keyed<X>, t: seq<Keyed<X>>, factor: int)
    requires Sorted(t, factor)
    requires forall j :: 0 <= j < |t| ==> InOrder(h.criterion, t[j].criterion, factor)
    ensures Sorted([h] + t, factor)
  {
    var r := [h] + t;
    forall i, j | 0 <= i < j < |r|
      ensures InOrder(r[i].criterion, r[j].criterion, factor)
    {
      if i > 0 {
        assert r[i] == t[i - 1] && r[j] == t[j - 1];
      }
    }
  }

  /** Everything inserted behind the head of a sorted list may follow that head. */
  lemma HeadPrecedesInsertion<X>(x: Keyed<X>, s: seq<Keyed<X>>, factor: int)
    requires factor == 1 || factor == -1
    requires |s| > 0 && Sorted(s, factor)
    requires !InOrder(x.criterion, s[0].criterion, factor)
    ensures forall j :: 0 <= j < |Insert(x, s[1..], factor)| ==>
      InOrder(s[0].criterion, Insert(x, s[1..], factor)[j].criterion, factor)
  {
    var tail := Insert(x, s[1..], factor);
    InsertKeepsElements(x, s[1..], factor);
    InOrderIsTotal(x.criterion, s[0].criterion, factor);
    forall j | 0 <= j < |tail|
      ensures InOrder(s[0].criterion, tail[j].criterion, factor)
    {
      assert tail[j] in multiset(tail);
      if tail[j] != x {
        assert tail[j] in multiset(s[1..]);
        var k :| 0 <= k < |s[1..]| && s[1..][k] == tail[j];
        assert s[k + 1] == tail[j];
      }
    }
  }

  lemma {:induction false} InsertSorts<X>(x: Keyed<X>, s: seq<Keyed<X>>, factor: int)
    requires factor == 1 || factor == -1
    requires Sorted(s, factor)
    ensures Sorted(Insert(x, s, factor), factor)
  {
    if |s| == 0 {
    } else if InOrder(x.criterion, s[0].criterion, factor) {
      forall j | 0 <= j < |s|
        ensures InOrder(x.criterion, s[j].criterion, factor)
      {
        if j > 0 {
          InOrderIsTransitive(x.criterion, s[0].criterion, s[j].criterion, factor);
        }
      }
      ConsSorted(x, s, factor);
    } else {
      assert Sorted(s[1..], factor) by {
        forall i, j | 0 <= i < j < |s[1..]|
          ensures InOrder(s[1..][i].criterion, s[1..][j].criterion, factor)
        {
          assert s[1..][i] == s[i + 1] && s[1..][j] == s[j + 1];
        }
      }
      InsertSorts(x, s[1..], factor);
      HeadPrecedesInsertion(x, s, factor);
      ConsSorted(s[0], Insert(x, s[1..], factor), factor);
    }
  }

  /** The sorted siblings are a permutation of the unsorted ones, in comparator order. */
  lemma {:induction false} SortKeyedIsSortedPermutation<X>(s: seq<Keyed<X>>, factor: int)
    requires factor == 1 || factor == -1
    ensures multiset(SortKeyed(s, factor)) == multiset(s)
    ensures Sorted(SortKeyed(s, factor), factor)
  {
    if |s| > 0 {
      var rest := SortKeyed(s[1..], factor);
      SortKeyedIsSortedPermutation(s[1..], factor);
      InsertKeepsElements(s[0], rest, factor);
      InsertSorts(s[0], rest, factor);
      assert SortKeyed(s, factor) == Insert(s[0], rest, factor);
      assert s == [s[0]] + s[1..];
    }
  }
}

=== FILE: groups.dfy ===
/**
 * The grouping tree of `groups.ts`: `buildTree` buckets the items by each
 * group-by column in turn, and `flattenTree` lists the tree in pre-order,
 * descending only into expanded groups.
 */
module Groups {
  import opened Wrappers
  import opened Columns
  import Strings
  import ArrayHelpers
  import opened GroupSort

  /** `GroupNode` (with its items and child nodes) or `ItemNode`; the `pathKey` is derived from `path`. */
  datatype Node<T> =
    | GroupNode(path: seq<string>, items: seq<T>, children: seq<Node<T>>)
    | ItemNode(path: seq<string>, item: T)

  /** `pathKeyFromPath`: the segments joined with `"//"`. */
  function PathKey(path: seq<string>): string {
    Strings.Join(path, "//")
  }

  /** One bucket of `groupByMultiple`, under its key. */
  datatype Bucket<T> = Bucket(key: string, items: seq<T>)

  /**
   * `groupByMultiple(items, valueOf)` is not part of this model: it is a
   * parameter returning the buckets in `Object.keys` order.
   */
  type GroupByMultiple<!T> = (seq<T>, T -> seq<Value>) -> seq<Bucket<T>>

  datatype SortDirection = Ascending | Descending

  /** The current `sortBy` state: a column and a direction. */
  datatype SortState<!T> = SortState(column: Column<T>, direction: SortDirection)

  datatype SortConfig<!T> = SortConfig(sortingFunction: GroupRow<T> -> string, sortDirectionFactor: int)

  /** `defaultSortGroupBy`: the group's own key, i.e. the last path segment, or `""` at the root. */
  function DefaultSortGroupBy<T>(row: GroupRow<T>): (r: string)
    ensures |row.path| > 0 ==> r == row.path[|row.path| - 1]
    ensures |row.path| == 0 ==> r == ""
  {
    ArrayHelpers.Last(row.path).GetOr("")
  }

  /**
   * The `sortGroupBy` of the current sort, which only applies when the sort
   * column is the grouping column (compared by key) or has a
   * `valueFromGroupRow`.
   */
  function SortGroupByOfCurrentSort<T>(sortByState: Option<SortState<T>>, columnToGroupNodesBy: Column<T>)
    : (r: Option<GroupRow<T> -> string>)
    ensures r.Some? <==>
      && sortByState.Some?
      && (columnToGroupNodesBy.key == sortByState.value.column.key || sortByState.value.column.hasValueFromGroupRow)
      && sortByState.value.column.sortGroupBy.Some?
    ensures r.Some? ==> r == sortByState.value.column.sortGroupBy
  {
    match sortByState
    case None => None
    case Some(state) =>
      if columnToGroupNodesBy.key == state.column.key || state.column.hasValueFromGroupRow
      then state.column.sortGroupBy
      else None
  }

  /** `determineSortBy` */
  function DetermineSortBy<T>(sortByState: Option<SortState<T>>, columnToGroupNodesBy: Column<T>): (r: SortConfig<T>)
    ensures r.sortDirectionFactor == 1 || r.sortDirectionFactor == -1
  {
    var ofCurrentSort := SortGroupByOfCurrentSort(sortByState, columnToGroupNodesBy);
    var ofCurrentGroup := columnToGroupNodesBy.sortGroupBy;
    var sortingFunction :=
      if ofCurrentSort.Some? then ofCurrentSort.value
      else if ofCurrentGroup.Some? then ofCurrentGroup.value
      else DefaultSortGroupBy;
    var factor :=
      if ofCurrentSort.None? then 1
      else if sortByState.value.direction == Descending then -1
      else 1;
    SortConfig(sortingFunction, factor)
  }

  /**
   * The sorting function is chosen in this order: the current sort's
   * `sortGroupBy` when it applies, the grouping column's own `sortGroupBy`,
   * the default; the order is descending only when the first one was chosen
   * and the sort is descending.
   */
  lemma DetermineSortByChoice<T>(sortByState: Option<SortState<T>>, column: Column<T>)
    ensures
      var r := DetermineSortBy(sortByState, column);
      var applies := sortByState.Some?
                     && (column.key == sortByState.value.column.key || sortByState.value.column.hasValueFromGroupRow)
                     && sortByState.value.column.sortGroupBy.Some?;
      && (applies ==> r.sortingFunction == sortByState.value.column.sortGroupBy.value)
      && (!applies && column.sortGroupBy.Some? ==> r.sortingFunction == column.sortGroupBy.value)
      && (!applies && column.sortGroupBy.None? ==> r.sortingFunction == DefaultSortGroupBy)
      && (r.sortDirectionFactor == -1 <==> applies && sortByState.value.direction == Descending)
  {
  }

  /** The error of calling the missing `nextGroupByFunction()!` while bucketing. */
  const GroupByFunctionMissing: string := "TypeError: nextGroupByFunction(...) is not a function"

  /** Every group-by column has a `valueFromItem`, so bucketing never calls `undefined`. */
  predicate CanGroupBy<T>(groupByColumns: seq<Column<T>>) {
    forall i :: 0 <= i < |groupByColumns| ==> groupByColumns[i].valueFromItem.Some?
  }

  /**
   * The child groups before sorting: one per bucket, under `path + [key]`,
   * built with the remaining columns. A column without `valueFromItem`
   * throws as soon as an item is bucketed (`nextGroupByFunction()!` is
   * `undefined`), and a child that throws makes the whole list throw.
   */
  function UnsortedChildren<T>(
    items: seq<T>, groupByColumns: seq<Column<T>>, sortBy: Option<SortState<T>>, path: seq<string>,
    groupByMultiple: GroupByMultiple<T>): (r: Result<seq<Node<T>>>)
    requires |groupByColumns| > 0
    ensures groupByColumns[0].valueFromItem.None? ==>
      && (r.Failure? <==> |items| > 0)
      && (r.Success? ==> r.value == [])
    ensures groupByColumns[0].valueFromItem.Some? ==>
      var buckets := groupByMultiple(items, groupByColumns[0].valueFromItem.value);
      && (r.Success? <==> forall i :: 0 <= i < |buckets| ==>
            BuildTree(buckets[i].items, groupByColumns[1..], sortBy, path + [buckets[i].key], groupByMultiple).Success?)
      && (r.Success? ==>
            && |r.value| == |buckets|
            && forall i :: 0 <= i < |r.value| ==>
                 && r.value[i] == BuildTree(buckets[i].items, groupByColumns[1..], sortBy, path + [buckets[i].key], groupByMultiple).value
                 && r.value[i].GroupNode? && r.value[i].path == path + [buckets[i].key] && r.value[i].items == buckets[i].items)
    decreases |groupByColumns|, 0
  {
    match groupByColumns[0].valueFromItem
    case None =>
      if |items| == 0 then Success([]) else Failure(GroupByFunctionMissing)
    case Some(valueOf) =>
      var buckets := groupByMultiple(items, valueOf);
      var built := seq(|buckets|, i requires 0 <= i < |buckets| =>
        BuildTree(buckets[i].items, groupByColumns[1..], sortBy, path + [buckets[i].key], groupByMultiple));
      assert forall i :: 0 <= i < |buckets| ==>
        built[i] == BuildTree(buckets[i].items, groupByColumns[1..], sortBy, path + [buckets[i].key], groupByMultiple);
      if forall i :: 0 <= i < |built| ==> built[i].Success? then
        Success(seq(|built|, i requires 0 <= i < |built| => built[i].value))
      else
        Failure(GroupByFunctionMissing)
  }

  /** A child group with its criterion, computed from its `GROUP_ROW` view. */
  function KeyChildren<T>(children: seq<Node<T>>, sortingFunction: GroupRow<T> -> string): (r: seq<Keyed<Node<T>>>)
    requires forall i :: 0 <= i < |children| ==> children[i].GroupNode?
    ensures |r| == |children|
    ensures forall i :: 0 <= i < |children| ==> r[i].value == children[i]
  {
    seq(|children|, i requires 0 <= i < |children| =>
      Keyed(children[i], sortingFunction(GroupRow(children[i].path, children[i].items))))
  }

  function Values<X>(s: seq<Keyed<X>>): (r: seq<X>)
    ensures |r| == |s|
    ensures forall i :: 0 <= i < |s| ==> r[i] == s[i].value
  {
    seq(|s|, i requires 0 <= i < |s| => s[i].value)
  }

  /**
   * `buildTreeRecursively(items, …, path)`: a group node over `items`. With
   * no group-by column left its children are one item node per item under
   * the same path; otherwise they are the bucket groups, sorted. It throws
   * when bucketing reaches a column without `valueFromItem`.
   */
  function BuildTree<T>(
    items: seq<T>, groupByColumns: seq<Column<T>>, sortBy: Option<SortState<T>>, path: seq<string>,
    groupByMultiple: GroupByMultiple<T>): (r: Result<Node<T>>)
    ensures r.Success? ==> r.value.GroupNode? && r.value.path == path && r.value.items == items
    decreases |groupByColumns|, 1
  {
    if |groupByColumns| == 0 then
      Success(GroupNode(path, items, seq(|items|, i requires 0 <= i < |items| => ItemNode(path, items[i]))))
    else
      var children :- UnsortedChildren(items, groupByColumns, sortBy, path, groupByMultiple);
      var config := DetermineSortBy(sortBy, groupByColumns[0]);
      var sorted := SortKeyed(KeyChildren(children, config.sortingFunction), config.sortDirectionFactor);
      Success(GroupNode(path, items, Values(sorted)))
  }

  /** The criterion the children of a group node are sorted by. */
  function Criterion<T>(node: Node<T>, sortingFunction: GroupRow<T> -> string): string
    requires node.GroupNode?
  {
    sortingFunction(GroupRow(node.path, node.items))
  }

  lemma ValuesOfConcat<X>(a: seq<Keyed<X>>, b: seq<Keyed<X>>)
    ensures Values(a + b) == Values(a) + Values(b)
  {
    assert Values(a + b) == Values(a) + Values(b);
  }

  /** Taking out the same element on both sides keeps a permutation. */
  lemma CancelOne<X>(a: seq<X>, x: X, b1: seq<X>, b2: seq<X>)
    requires multiset(a + [x]) == multiset(b1 + [x] + b2)
    ensures multiset(a) == multiset(b1 + b2)
  {
    assert multiset(b1 + [x] + b2) == multiset(b1 + b2) + multiset{x};
    assert multiset(a + [x]) == multiset(a) + multiset{x};
    forall y ensures multiset(b1 + b2)[y] == multiset(a)[y] {
      assert (multiset(b1 + b2) + multiset{x})[y] == (multiset(a) + multiset{x})[y];
    }
  }

  /** Taking the values keeps a permutation a permutation. */
  lemma {:induction false} ValuesOfPermutation<X>(a: seq<Keyed<X>>, b: seq<Keyed<X>>)
    requires multiset(a) == multiset(b)
    ensures multiset(Values(a)) == multiset(Values(b))
    decreases |a|
  {
    if |a| == 0 {
      assert |b| == |multiset(b)| == 0;
    } else {
      var x := a[|a| - 1];
      var a' := a[..|a| - 1];
      assert a == a' + [x];
      assert x in multiset(b);
      var k :| 0 <= k < |b| && b[k] == x;
      var b1, b2 := b[..k], b[k + 1..];
      assert b == b1 + [x] + b2;
      CancelOne(a', x, b1, b2);
      ValuesOfPermutation(a', b1 + b2);
      ValuesOfConcat(a', [x]);
      ValuesOfConcat(b1 + [x], b2);
      ValuesOfConcat(b1, [x]);
      ValuesOfConcat(b1, b2);
    }
  }

  /** Without a group-by column left, a group node lists its items as item nodes under its own path, in order. */
  lemma LeafGroupListsItems<T>(
    items: seq<T>, sortBy: Option<SortState<T>>, path: seq<string>, groupByMultiple: GroupByMultiple<T>)
    ensures
      var r := BuildTree(items, [], sortBy, path, groupByMultiple);
      && r.Success?
      && |r.value.children| == |items|
      && forall i :: 0 <= i < |items| ==> r.value.children[i] == ItemNode(path, items[i])
  {
  }

  /**
   * Bucketing `items` by the columns in turn reaches a column without
   * `valueFromItem` while some group still holds items.
   */
  ghost predicate ReachesMissingAccessor<T>(items: seq<T>, groupByColumns: seq<Column<T>>, groupByMultiple: GroupByMultiple<T>)
    decreases |groupByColumns|
  {
    && |groupByColumns| > 0
    && match groupByColumns[0].valueFromItem
       case None => |items| > 0
       case Some(valueOf) =>
         exists b :: b in groupByMultiple(items, valueOf) && ReachesMissingAccessor(b.items, groupByColumns[1..], groupByMultiple)
  }

  /**
   * `buildTree` throws exactly when bucketing reaches a column without
   * `valueFromItem` with items left to bucket, whatever the path and the sort.
   */
  lemma {:induction false} BuildTreeThrowsIff<T>(
    items: seq<T>, groupByColumns: seq<Column<T>>, sortBy: Option<SortState<T>>, path: seq<string>,
    groupByMultiple: GroupByMultiple<T>)
    ensures BuildTree(items, groupByColumns, sortBy, path, groupByMultiple).Failure?
            <==> ReachesMissingAccessor(items, groupByColumns, groupByMultiple)
    decreases |groupByColumns|
  {
    if |groupByColumns| > 0 && groupByColumns[0].valueFromItem.Some? {
      var valueOf := groupByColumns[0].valueFromItem.value;
      var buckets := groupByMultiple(items, valueOf);
      var rest := groupByColumns[1..];
      forall i | 0 <= i < |buckets|
        ensures BuildTree(buckets[i].items, rest, sortBy, path + [buckets[i].key], groupByMultiple).Failure?
                <==> ReachesMissingAccessor(buckets[i].items, rest, groupByMultiple)
      {
        BuildTreeThrowsIff(buckets[i].items, rest, sortBy, path + [buckets[i].key], groupByMultiple);
      }
      if ReachesMissingAccessor(items, groupByColumns, groupByMultiple) {
        var b :| b in buckets && ReachesMissingAccessor(b.items, rest, groupByMultiple);
        var k :| 0 <= k < |buckets| && buckets[k] == b;
        assert BuildTree(buckets[k].items, rest, sortBy, path + [buckets[k].key], groupByMultiple).Failure?;
      }
    }
  }

  /** With a `valueFromItem` on every group-by column, `buildTree` never throws. */
  lemma BuildTreeSucceedsWithAccessors<T>(
    items: seq<T>, groupByColumns: seq<Column<T>>, sortBy: Option<SortState<T>>, path: seq<string>,
    groupByMultiple: GroupByMultiple<T>)
    requires CanGroupBy(groupByColumns)
    ensures BuildTree(items, groupByColumns, sortBy, path, groupByMultiple).Success?
  {
    BuildTreeThrowsIff(items, groupByColumns, sortBy, path, groupByMultiple);
    NoMissingAccessor(items, groupByColumns, groupByMultiple);
  }

  lemma {:induction false} NoMissingAccessor<T>(items: seq<T>, groupByColumns: seq<Column<T>>, groupByMultiple: GroupByMultiple<T>)
    requires CanGroupBy(groupByColumns)
    ensures !ReachesMissingAccessor(items, groupByColumns, groupByMultiple)
    decreases |groupByColumns|
  {
    if |groupByColumns| > 0 {
      var buckets := groupByMultiple(items, groupByColumns[0].valueFromItem.value);
      assert CanGroupBy(groupByColumns[1..]);
      forall b | b in buckets
        ensures !ReachesMissingAccessor(b.items, groupByColumns[1..], groupByMultiple)
      {
        NoMissingAccessor(b.items, groupByColumns[1..], groupByMultiple);
      }
    }
  }

  /** A column without `valueFromItem` throws on any item, and over no items gives a group without children. */
  lemma MissingAccessorThrowsOnItems<T>(
    items: seq<T>, groupByColumns: seq<Column<T>>, sortBy: Option<SortState<T>>, path: seq<string>,
    groupByMultiple: GroupByMultiple<T>)
    requires |groupByColumns| > 0 && groupByColumns[0].valueFromItem.None?
    ensures
      var r := BuildTree(items, groupByColumns, sortBy, path, groupByMultiple);
      && (r.Failure? <==> |items| > 0)
      && (r.Success? ==> r.value == GroupNode(path, [], []))
  {
  }

  /** A built group node with a column left holds its unsorted children, keyed and sorted. */
  lemma BuiltChildrenAreSorted<T>(
    items: seq<T>, groupByColumns: seq<Column<T>>, sortBy: Option<SortState<T>>, path: seq<string>,
    groupByMultiple: GroupByMultiple<T>)
    requires |groupByColumns| > 0
    requires BuildTree(items, groupByColumns, sortBy, path, groupByMultiple).Success?
    ensures
      var u := UnsortedChildren(items, groupByColumns, sortBy, path, groupByMultiple);
      var config := DetermineSortBy(sortBy, groupByColumns[0]);
      && u.Success?
      && (forall i :: 0 <= i < |u.value| ==> u.value[i].GroupNode?)
      && BuildTree(items, groupByColumns, sortBy, path, groupByMultiple).value.children
         == Values(SortKeyed(KeyChildren(u.value, config.sortingFunction), config.sortDirectionFactor))
  {
  }

  /**
   * With a group-by column left, a built group node's children are the
   * bucket groups, each one step deeper, rearranged so that their criteria
   * follow the sort direction.
   */
  lemma GroupChildrenAreSortedBuckets<T>(
    items: seq<T>, groupByColumns: seq<Column<T>>, sortBy: Option<SortState<T>>, path: seq<string>,
    groupByMultiple: GroupByMultiple<T>)
    requires |groupByColumns| > 0 && groupByColumns[0].valueFromItem.Some?
    requires BuildTree(items, groupByColumns, sortBy, path, groupByMultiple).Success?
    ensures
      var node := BuildTree(items, groupByColumns, sortBy, path, groupByMultiple).value;
      var unsorted := UnsortedChildren(items, groupByColumns, sortBy, path, groupByMultiple);
      var buckets := groupByMultiple(items, groupByColumns[0].valueFromItem.value);
      var config := DetermineSortBy(sortBy, groupByColumns[0]);
      && unsorted.Success?
      && multiset(node.children) == multiset(unsorted.value)
      && |node.children| == |buckets|
      && (forall i :: 0 <= i < |node.children| ==>
            node.children[i].GroupNode? && |node.children[i].path| == |path| + 1
            && node.children[i].path[..|path|] == path)
      && (forall i, j :: 0 <= i < j < |node.children| ==>
            InOrder(Criterion(node.children[i], config.sortingFunction),
                    Criterion(node.children[j], config.sortingFunction), config.sortDirectionFactor))
  {
    BuiltChildrenAreSorted(items, groupByColumns, sortBy, path, groupByMultiple);
    var children := UnsortedChildren(items, groupByColumns, sortBy, path, groupByMultiple).value;
    var config := DetermineSortBy(sortBy, groupByColumns[0]);
    var keyed := KeyChildren(children, config.sortingFunction);
    var sorted := SortKeyed(keyed, config.sortDirectionFactor);
    SortKeyedIsSortedPermutation(keyed, config.sortDirectionFactor);
    ValuesOfPermutation(sorted, keyed);
    assert Values(keyed) == children;
    forall i | 0 <= i < |sorted|
      ensures sorted[i].value in children
      ensures sorted[i].criterion == Criterion(sorted[i].value, config.sortingFunction)
    {
      assert sorted[i] in multiset(keyed);
      var k :| 0 <= k < |keyed| && keyed[k] == sorted[i];
    }
  }

  /**
   * Paths follow depth: a child group's path is its parent's path plus one
   * key, and an item node carries its parent's path.
   */
  predicate WellPathed<T>(node: Node<T>)
    decreases node
  {
    node.GroupNode? ==>
      forall i :: 0 <= i < |node.children| ==>
        && (if node.children[i].GroupNode?
            then |node.children[i].path| == |node.path| + 1 && node.children[i].path[..|node.path|] == node.path
            else node.children[i].path == node.path)
        && WellPathed(node.children[i])
  }

  /** Every tree `buildTree` builds without throwing is well pathed. */
  lemma {:induction false} BuildTreeIsWellPathed<T>(
    items: seq<T>, groupByColumns: seq<Column<T>>, sortBy: Option<SortState<T>>, path: seq<string>,
    groupByMultiple: GroupByMultiple<T>)
    requires BuildTree(items, groupByColumns, sortBy, path, groupByMultiple).Success?
    ensures WellPathed(BuildTree(items, groupByColumns, sortBy, path, groupByMultiple).value)
    decreases |groupByColumns|
  {
    var node := BuildTree(items, groupByColumns, sortBy, path, groupByMultiple).value;
    if |groupByColumns| > 0 && groupByColumns[0].valueFromItem.Some? {
      var unsorted := UnsortedChildren(items, groupByColumns, sortBy, path, groupByMultiple).value;
      var buckets := groupByMultiple(items, groupByColumns[0].valueFromItem.value);
      GroupChildrenAreSortedBuckets(items, groupByColumns, sortBy, path, groupByMultiple);
      forall i | 0 <= i < |node.children|
        ensures WellPathed(node.children[i])
      {
        assert node.children[i] in multiset(unsorted);
        var k :| 0 <= k < |unsorted| && unsorted[k] == node.children[i];
        BuildTreeIsWellPathed(buckets[k].items, groupByColumns[1..], sortBy, path + [buckets[k].key], groupByMultiple);
      }
    }
  }

  /** The whole tree: `buildTree` starts at the root path `[]` over all items. */
  lemma RootHoldsAllItems<T>(
    items: seq<T>, groupByColumns: seq<Column<T>>, sortBy: Option<SortState<T>>, groupByMultiple: GroupByMultiple<T>)
    ensures
      var r := BuildTree(items, groupByColumns, sortBy, [], groupByMultiple);
      r.Success? ==> r.value.path == [] && PathKey(r.value.path) == "" && r.value.items == items
  {
  }

  /**
   * `flattenTree` in pre-order: the node itself when `includeRoot`, then,
   * unless the node is listed but not expanded, the flattened children of a
   * group node.
   */
  function Flatten<T>(node: Node<T>, expandedPaths: set<string>, includeRoot: bool): (r: seq<Node<T>>)
    ensures includeRoot ==> |r| > 0 && r[0] == node
    ensures !includeRoot && node.ItemNode? ==> r == []
    decreases node, 1
  {
    var head := if includeRoot then [node] else [];
    if includeRoot && PathKey(node.path) !in expandedPaths then head
    else
      match node
      case ItemNode(_, _) => head
      case GroupNode(_, _, children) => head + FlattenAll(children, expandedPaths)
  }

  /** The children one after the other, each listed itself. */
  function FlattenAll<T>(nodes: seq<Node<T>>, expandedPaths: set<string>): (r: seq<Node<T>>)
    ensures |r| >= |nodes|
    decreases nodes, 0
  {
    if |nodes| == 0 then []
    else Flatten(nodes[0], expandedPaths, true) + FlattenAll(nodes[1..], expandedPaths)
  }

  /** Flattening distributes over concatenation of sibling lists. */
  lemma {:induction false} FlattenAllOfConcat<T>(a: seq<Node<T>>, b: seq<Node<T>>, expandedPaths: set<string>)
    ensures FlattenAll(a + b, expandedPaths) == FlattenAll(a, expandedPaths) + FlattenAll(b, expandedPaths)
    decreases |a|
  {
    if |a| > 0 {
      assert (a + b)[1..] == a[1..] + b;
      FlattenAllOfConcat(a[1..], b, expandedPaths);
    } else {
      assert a + b == b;
    }
  }

  /** Nodes whose keys are not expanded are listed alone, so nothing expanded lists exactly the root's children. */
  lemma {:induction false} NothingExpandedListsTopLevel<T>(nodes: seq<Node<T>>)
    ensures FlattenAll(nodes, {}) == nodes
    decreases |nodes|
  {
    if |nodes| > 0 {
      NothingExpandedListsTopLevel(nodes[1..]);
      assert Flatten(nodes[0], {}, true) == [nodes[0]];
      assert [nodes[0]] + nodes[1..] == nodes;
    }
  }

  /** Without the root and with nothing expanded, the list is the root's children. */
  lemma NothingExpandedListsRootChildren<T>(root: Node<T>)
    requires root.GroupNode?
    ensures Flatten(root, {}, false) == root.children
  {
    NothingExpandedListsTopLevel(root.children);
  }

  /** Without the root, its children are flattened whatever the root's own key. */
  lemma RootExcludedStillDescends<T>(root: Node<T>, expandedPaths: set<string>)
    requires root.GroupNode?
    ensures Flatten(root, expandedPaths, false) == FlattenAll(root.children, expandedPaths)
    ensures |Flatten(root, expandedPaths, false)| >= |root.children|
  {
  }

  /** An item node has no descendants: listed, it is listed alone, whether expanded or not. */
  lemma ItemNodeIsListedAlone<T>(node: Node<T>, expandedPaths: set<string>)
    requires node.ItemNode?
    ensures Flatten(node, expandedPaths, true) == [node]
  {
  }

  /** A collapsed listed node hides all its descendants. */
  lemma CollapsedNodeIsListedAlone<T>(node: Node<T>, expandedPaths: set<string>)
    requires PathKey(node.path) !in expandedPaths
    ensures Flatten(node, expandedPaths, true) == [node]
  {
  }

  /** Number of nodes in a tree. */
  function CountNodes<T>(node: Node<T>): nat
    decreases node, 1
  {
    match node
    case ItemNode(_, _) => 1
    case GroupNode(_, _, children) => 1 + CountAll(children)
  }

  function CountAll<T>(nodes: seq<Node<T>>): nat
    decreases nodes, 0
  {
    if |nodes| == 0 then 0 else CountNodes(nodes[0]) + CountAll(nodes[1..])
  }

  /** Every group node of the tree has its key expanded. */
  predicate AllExpanded<T>(node: Node<T>, expandedPaths: set<string>)
    decreases node
  {
    && PathKey(node.path) in expandedPaths
    && (node.GroupNode? ==>
          forall i :: 0 <= i < |node.children| ==> AllExpanded(node.children[i], expandedPaths))
  }

  /** Flattening lists each node at most once, and every node once the whole tree is expanded. */
  lemma {:induction false} FlattenCountsNodes<T>(node: Node<T>, expandedPaths: set<string>)
    ensures |Flatten(node, expandedPaths, true)| <= CountNodes(node)
    ensures AllExpanded(node, expandedPaths) ==> |Flatten(node, expandedPaths, true)| == CountNodes(node)
    decreases node, 1
  {
    if node.GroupNode? && PathKey(node.path) in expandedPaths {
      FlattenAllCountsNodes(node.children, expandedPaths);
    }
  }

  lemma {:induction false} FlattenAllCountsNodes<T>(nodes: seq<Node<T>>, expandedPaths: set<string>)
    ensures |FlattenAll(nodes, expandedPaths)| <= CountAll(nodes)
    ensures (forall i :: 0 <= i < |nodes| ==> AllExpanded(nodes[i], expandedPaths)) ==>
              |FlattenAll(nodes, expandedPaths)| == CountAll(nodes)
    decreases nodes, 0
  {
    if |nodes| > 0 {
      FlattenCountsNodes(nodes[0], expandedPaths);
      FlattenAllCountsNodes(nodes[1..], expandedPaths);
      if forall i :: 0 <= i < |nodes| ==> AllExpanded(nodes[i], expandedPaths) {
        assert forall i :: 0 <= i < |nodes[1..]| ==> AllExpanded(nodes[1..][i], expandedPaths) by {
          forall i | 0 <= i < |nodes[1..]| ensures AllExpanded(nodes[1..][i], expandedPaths) {
            assert nodes[1..][i] == nodes[i + 1];
          }
        }
      }
    }
  }

  /** Joining with `"//"` loses segment boundaries: `["a//b"]` and `["a", "b"]` share a key, and so do `[]` and `[""]`. */
  lemma PathKeyIsAmbiguous()
    ensures PathKey(["a//b"]) == PathKey(["a", "b"])
    ensures PathKey([]) == PathKey([""])
  {
    assert PathKey(["a", "b"]) == "a" + "//" + Strings.Join(["b"], "//");
  }

  /**
   * The ambiguity needs a `/` inside a segment or the empty path: a
   * non-empty path whose segments hold no `/` is determined by its key.
   */
  lemma PathKeyIsInjective(p: seq<string>, q: seq<string>)
    requires |p| > 0 && |q| > 0
    requires forall k :: 0 <= k < |p| ==> '/' !in p[k]
    requires forall k :: 0 <= k < |q| ==> '/' !in q[k]
    requires PathKey(p) == PathKey(q)
    ensures p == q
  {
    KeyPiecesJoin(p);
    KeyPiecesJoin(q);
    Strings.SplitJoin(KeyPieces(p), '/');
    Strings.SplitJoin(KeyPieces(q), '/');
    KeyPiecesIsInjective(p, q);
  }

  /** The pieces `PathKey(path).split("/")` yields: the segments, with an empty piece between neighbours. */
  ghost function KeyPieces(path: seq<string>): (r: seq<string>)
    ensures |path| == 0 ==> r == []
    ensures |path| > 0 ==> |r| == 2 * |path| - 1 && r[0] == path[0]
    ensures forall k :: 0 <= k < |r| ==> r[k] == "" || r[k] in path
  {
    if |path| <= 1 then path else [path[0], ""] + KeyPieces(path[1..])
  }

  lemma {:induction false} KeyPiecesJoin(path: seq<string>)
    ensures PathKey(path) == Strings.Join(KeyPieces(path), "/")
  {
    if |path| > 1 {
      var rest := KeyPieces(path[1..]);
      KeyPiecesJoin(path[1..]);
      var pieces := [path[0], ""] + rest;
      assert pieces[1..] == [""] + rest && ([""] + rest)[1..] == rest;
      assert Strings.Join(pieces, "/") == path[0] + "/" + ("" + "/" + Strings.Join(rest, "/"));
    }
  }

  lemma {:induction false} KeyPiecesIsInjective(p: seq<string>, q: seq<string>)
    requires KeyPieces(p) == KeyPieces(q)
    ensures p == q
  {
    if |p| > 1 {
      assert KeyPieces(p)[2..] == KeyPieces(p[1..]);
      assert KeyPieces(q)[2..] == KeyPieces(q[1..]);
      KeyPiecesIsInjective(p[1..], q[1..]);
      assert p == [p[0]] + p[1..] && q == [q[0]] + q[1..];
    }
  }

  /** Fully expanded without the root, every node but the root is listed. */
  lemma FullyExpandedWithoutRoot<T>(root: Node<T>, expandedPaths: set<string>)
    requires root.GroupNode?
    requires forall i :: 0 <= i < |root.children| ==> AllExpanded(root.children[i], expandedPaths)
    ensures |Flatten(root, expandedPaths, false)| == CountNodes(root) - 1
  {
    FlattenAllCountsNodes(root.children, expandedPaths);
  }

  /** The buckets `groupByMultiple` forms for six items by country, keys in first-seen order. */
  function SixCountryBuckets(items: seq<string>, valueOf: string -> seq<Value>): seq<Bucket<string>> {
    [Bucket("US", ["US", "US"]), Bucket("DE", ["DE", "DE", "DE"]), Bucket("FR", ["FR"])]
  }

  /** The ascending insertion sort puts criteria `US`, `DE`, `FR` into the order `DE`, `FR`, `US`. */
  lemma SortsThreeCountries<X>(keyed: seq<Keyed<X>>)
    requires |keyed| == 3
    requires keyed[0].criterion == "US" && keyed[1].criterion == "DE" && keyed[2].criterion == "FR"
    ensures SortKeyed(keyed, 1) == [keyed[1], keyed[2], keyed[0]]
  {
    assert LexLess("DE", "US") && LexLess("FR", "US") && LexLess("DE", "FR");
    assert !LexLess("US", "DE") && !LexLess("US", "FR");
    assert keyed[1..][1..] == [keyed[2]] && keyed[1..][1..][1..] == [];
    assert SortKeyed(keyed[1..][1..], 1) == [keyed[2]];
    assert SortKeyed(keyed[1..], 1) == [keyed[1], keyed[2]];
    assert Insert(keyed[0], [keyed[2]], 1) == [keyed[2], keyed[0]];
  }

  /** A column grouping strings by themselves. */
  const CountryColumn: Column<string> := Column("country", Some((c: string) => [Str(c)]), None, false)

  const SixCountries: seq<string> := ["US", "US", "DE", "DE", "DE", "FR"]

  /** Before sorting, the country groups come in bucket order, each built without throwing. */
  lemma CountryChildrenInBucketOrder()
    ensures
      var u := UnsortedChildren(SixCountries, [CountryColumn], None, [], SixCountryBuckets);
      && u.Success? && |u.value| == 3
      && u.value[0].path == ["US"] && |u.value[0].items| == 2
      && u.value[1].path == ["DE"] && |u.value[1].items| == 3
      && u.value[2].path == ["FR"] && |u.value[2].items| == 1
  {
    var buckets := SixCountryBuckets(SixCountries, CountryColumn.valueFromItem.value);
    forall i | 0 <= i < |buckets|
      ensures BuildTree(buckets[i].items, [], None, [buckets[i].key], SixCountryBuckets).Success?
    {
      LeafGroupListsItems(buckets[i].items, None, [buckets[i].key], SixCountryBuckets);
    }
  }

  /** Grouping by country with no sort orders the groups by their key, ascending. */
  lemma CountryGroupingExample()
    ensures
      var r := BuildTree(SixCountries, [CountryColumn], None, [], SixCountryBuckets);
      var root := r.value;
      && r.Success?
      && |root.children| == 3
      && root.children[0].GroupNode? && root.children[1].GroupNode? && root.children[2].GroupNode?
      && root.children[0].path == ["DE"] && |root.children[0].items| == 3
      && root.children[1].path == ["FR"] && |root.children[1].items| == 1
      && root.children[2].path == ["US"] && |root.children[2].items| == 2
  {
    CountryChildrenInBucketOrder();
    BuiltChildrenAreSorted(SixCountries, [CountryColumn], None, [], SixCountryBuckets);
    var children := UnsortedChildren(SixCountries, [CountryColumn], None, [], SixCountryBuckets).value;
    var config := DetermineSortBy(None, CountryColumn);
    assert config.sortDirectionFactor == 1 && config.sortingFunction == DefaultSortGroupBy;
    var keyed := KeyChildren(children, config.sortingFunction);
    assert keyed[0].criterion == DefaultSortGroupBy(GroupRow(["US"], children[0].items)) == "US";
    assert keyed[1].criterion == DefaultSortGroupBy(GroupRow(["DE"], children[1].items)) == "DE";
    assert keyed[2].criterion == DefaultSortGroupBy(GroupRow(["FR"], children[2].items)) == "FR";
    SortsThreeCountries(keyed);
  }
}

=== FILE: js.dfy ===
/** The few JavaScript array semantics the grid code depends on. */
module Js {
  import opened Wrappers

  /** Normalises one `slice` bound: negative counts from the end, then clamps to `[0, len]`. */
  function SliceBound(len: nat, i: int): (r: nat)
    ensures r <= len
    ensures 0 <= i <= len ==> r == i
    ensures i > len ==> r == len
    ensures i < 0 ==> r == if len + i < 0 then 0 else len + i
  {
    if i < 0 then (if len + i < 0 then 0 else len + i)
    else if i > len then len
    else i
  }

  /** `s.slice(from, to)`. */
  function Slice<T>(s: seq<T>, from: int, to: int): (r: seq<T>)
    ensures 0 <= from <= to <= |s| ==> r == s[from..to]
    ensures |r| <= |s|
  {
    var b := SliceBound(|s|, from);
    var e := SliceBound(|s|, to);
    if e <= b then [] else s[b..e]
  }

  /** `s.slice(from)`. */
  function SliceFrom<T>(s: seq<T>, from: int): (r: seq<T>)
    ensures 0 <= from <= |s| ==> r == s[from..]
    ensures from >= |s| ==> r == []
  {
    s[SliceBound(|s|, from)..]
  }

  /** `s[i]`, which is `undefined` outside `[0, |s|)`. */
  function At<T>(s: seq<T>, i: int): (r: Option<T>)
    ensures r.Some? <==> 0 <= i < |s|
    ensures r.Some? ==> r.value == s[i]
  {
    if 0 <= i < |s| then Some(s[i]) else None
  }

  /** Three slices cut at non-negative, ordered points always put every element back once. */
  lemma SlicesTile<T>(s: seq<T>, a: int, b: int)
    requires 0 <= a <= b
    ensures Slice(s, 0, a) + Slice(s, a, b) + SliceFrom(s, b) == s
  {
    var a' := SliceBound(|s|, a);
    var b' := SliceBound(|s|, b);
    assert a' <= b';
    assert s[..a'] + s[a'..b'] + s[b'..] == s;
  }
}

=== FILE: lazy.dfy ===
/**
 * `lazy(factory)`: a memo cell that calls `factory` on demand and keeps its
 * result, except that `null` doubles as the "empty" marker and is never kept.
 */
module Lazy {

  /** A factory result: `null`, `undefined`, or any other value. */
  datatype Produced<T> = Null | Undefined | Value(value: T)

  /**
   * The closure's state: the `cache` variable and how often the factory has
   * run. The factory is not a pure function in general, so it is modelled as
   * the sequence of results it gives on successive invocations.
   */
  datatype Cell<T> = Cell(cache: Produced<T>, invocations: nat)

  /** `lazy(factory)`: the cache starts at `null` and the factory has not run. */
  function NewCell<T>(): (c: Cell<T>)
    ensures c.cache == Null && c.invocations == 0
  {
    Cell(Null, 0)
  }

  /** One call of `lazyFactory`: run the factory when the cache is `null`, then return the cache. */
  function Call<T>(c: Cell<T>, factory: nat -> Produced<T>): (r: (Cell<T>, Produced<T>))
    ensures r.1 == r.0.cache
    ensures c.cache == Null ==> r.0 == Cell(factory(c.invocations), c.invocations + 1)
    ensures c.cache != Null ==> r.0 == c
  {
    if c.cache == Null then
      var value := factory(c.invocations);
      (Cell(value, c.invocations + 1), value)
    else (c, c.cache)
  }

  /** `k` calls in a row, with the results they return. */
  function CallTimes<T>(c: Cell<T>, factory: nat -> Produced<T>, k: nat): (r: (Cell<T>, seq<Produced<T>>))
    ensures |r.1| == k
    decreases k
  {
    if k == 0 then (c, [])
    else
      var (next, value) := Call(c, factory);
      var (last, values) := CallTimes(next, factory, k - 1);
      (last, [value] + values)
  }

  /** The first call runs the factory once and returns what it produced. */
  lemma FirstCallRunsFactory<T>(factory: nat -> Produced<T>)
    ensures Call(NewCell(), factory).0.invocations == 1
    ensures Call(NewCell(), factory).1 == factory(0)
  {
  }

  /**
   * If the first result is not `null` (a value or `undefined`), any number
   * of calls runs the factory exactly once and every call returns that first
   * result.
   */
  lemma {:induction false} NonNullResultIsKept<T>(factory: nat -> Produced<T>, k: nat)
    requires k > 0
    requires factory(0) != Null
    ensures CallTimes(NewCell(), factory, k).0.invocations == 1
    ensures forall i :: 0 <= i < k ==> CallTimes(NewCell(), factory, k).1[i] == factory(0)
  {
    var first := Call(NewCell(), factory).0;
    assert first == Cell(factory(0), 1);
    CachedCellIsStable(first, factory, k - 1);
  }

  /** A cell holding a non-`null` value never changes and keeps returning it. */
  lemma {:induction false} CachedCellIsStable<T>(c: Cell<T>, factory: nat -> Produced<T>, k: nat)
    requires c.cache != Null
    ensures CallTimes(c, factory, k).0 == c
    ensures forall i :: 0 <= i < k ==> CallTimes(c, factory, k).1[i] == c.cache
    decreases k
  {
    if k > 0 {
      CachedCellIsStable(c, factory, k - 1);
    }
  }

  /** A factory that only ever yields `null` runs on every call. */
  lemma {:induction false} NullIsNeverCached<T>(c: Cell<T>, factory: nat -> Produced<T>, k: nat)
    requires c.cache == Null
    requires forall i: nat :: factory(i) == Null
    ensures CallTimes(c, factory, k).0 == Cell(Null, c.invocations + k)
    ensures forall i :: 0 <= i < k ==> CallTimes(c, factory, k).1[i] == Null
    decreases k
  {
    if k > 0 {
      var next := Call(c, factory).0;
      assert next == Cell(Null, c.invocations + 1);
      NullIsNeverCached(next, factory, k - 1);
    }
  }
}

=== FILE: mock_persons.dfy ===
/**
 * The chunking of `buildPersons(n)`: persons are generated in chunks of 100,
 * with one `yield` after each chunk. `generatePerson` is random and is a
 * parameter here.
 */
module MockPersons {

  const ChunkSize: nat := 100

  /** `Math.ceil(n / 100)` for a whole, non-negative `n`. */
  function ChunkCount(n: nat): (r: nat)
    ensures r * ChunkSize >= n
    ensures r > 0 ==> (r - 1) * ChunkSize < n
    ensures n == 0 <==> r == 0
  {
    (n + ChunkSize - 1) / ChunkSize
  }

  /** `sizeOfThisChunk`: 100, except for the last chunk, which takes `n % 100 || 100`, capped at 100. */
  function SizeOfChunk(n: nat, chunkIndex: nat): (r: nat)
    ensures 0 < r <= ChunkSize
    ensures chunkIndex + 1 != ChunkCount(n) ==> r == ChunkSize
  {
    var chunkCount := ChunkCount(n);
    if chunkIndex == chunkCount - 1 then
      var rest := if n % ChunkSize == 0 then ChunkSize else n % ChunkSize;
      if ChunkSize < rest then ChunkSize else rest
    else ChunkSize
  }

  /** The last chunk holds what the full chunks before it leave over, so the chunks add up to `n`. */
  lemma LastChunkCompletesCount(n: nat)
    requires n > 0
    ensures (ChunkCount(n) - 1) * ChunkSize + SizeOfChunk(n, ChunkCount(n) - 1) == n
    ensures 0 < SizeOfChunk(n, ChunkCount(n) - 1) <= ChunkSize
  {
    var c := ChunkCount(n);
    assert n == (n / ChunkSize) * ChunkSize + n % ChunkSize;
    if n % ChunkSize == 0 {
      assert c == n / ChunkSize;
    } else {
      assert c == n / ChunkSize + 1;
    }
  }

  /**
   * `buildPersons(n)`, run to completion: the persons built and the number
   * of times it yielded. The persons are `generatePerson(0 .. n - 1)` in
   * order, and it yields once per chunk.
   */
  method BuildPersons<P>(n: nat, generatePerson: nat -> P) returns (persons: seq<P>, yieldCount: nat)
    ensures persons == seq(n, (i: nat) => generatePerson(i))
    ensures yieldCount == ChunkCount(n)
    ensures n == 0 ==> persons == [] && yieldCount == 0
  {
    persons := [];
    yieldCount := 0;
    var chunkCount := ChunkCount(n);
    var chunkIndex := 0;
    while chunkIndex < chunkCount
      invariant chunkIndex <= chunkCount
      invariant yieldCount == chunkIndex
      invariant chunkIndex < chunkCount ==> |persons| == chunkIndex * ChunkSize
      invariant chunkIndex == chunkCount ==> |persons| == n
      invariant |persons| <= n
      invariant forall k :: 0 <= k < |persons| ==> persons[k] == generatePerson(k)
    {
      var sizeOfThisChunk := SizeOfChunk(n, chunkIndex);
      if chunkIndex == chunkCount - 1 {
        LastChunkCompletesCount(n);
      } else {
        assert (chunkIndex + 1) * ChunkSize < n;
      }
      var i := 0;
      while i < sizeOfThisChunk
        invariant i <= sizeOfThisChunk
        invariant |persons| == chunkIndex * ChunkSize + i
        invariant forall k :: 0 <= k < |persons| ==> persons[k] == generatePerson(k)
      {
        var realIndex := chunkIndex * ChunkSize + i;
        persons := persons + [generatePerson(realIndex)];
        i := i + 1;
      }
      yieldCount := yieldCount + 1;
      chunkIndex := chunkIndex + 1;
    }
  }
}

=== FILE: scoped.dfy ===
/** `defineScope(scope)` returns `scoped`, which builds a class attribute from optional class names. */
module Scoped {
  import Strings

  /** One argument of `scoped`: a class name, or one of the falsy values callers pass for "none". */
  datatype ClassArg = Name(name: string) | Null | Undefined | False

  /** The `typeof className === "string"` filter: the names, in argument order. */
  function Names(classes: seq<ClassArg>): (r: seq<string>)
    ensures |r| <= |classes|
    ensures (forall i :: 0 <= i < |classes| ==> !classes[i].Name?) <==> r == []
  {
    if |classes| == 0 then []
    else
      var rest := Names(classes[1..]);
      if classes[0].Name? then [classes[0].name] + rest else rest
  }

  /** Filtering keeps argument order: the names of a concatenation are the names of each part. */
  lemma {:induction false} NamesOfConcat(a: seq<ClassArg>, b: seq<ClassArg>)
    ensures Names(a + b) == Names(a) + Names(b)
  {
    if |a| > 0 {
      assert (a + b)[1..] == a[1..] + b;
      NamesOfConcat(a[1..], b);
    } else {
      assert a + b == b;
    }
  }

  /** The `map` step: `${classScope}${className}` for every name. */
  function Prefixed(scope: string, names: seq<string>): (r: seq<string>)
    ensures |r| == |names|
    ensures forall i :: 0 <= i < |names| ==> r[i] == scope + names[i]
  {
    seq(|names|, i requires 0 <= i < |names| => scope + names[i])
  }

  /** `defineScope(scope)(...classes)`. */
  function ScopedClasses(scope: string, classes: seq<ClassArg>): (r: string)
    ensures Names(classes) == [] ==> r == ""
  {
    Strings.Join(Prefixed(scope, Names(classes)), " ")
  }

  /**
   * When neither the scope nor any name holds a space, splitting the class
   * attribute on spaces gives back exactly the scoped names, in argument
   * order: every name appears once, prefixed, and nothing else does.
   */
  lemma ScopedSplitsIntoPrefixedNames(scope: string, classes: seq<ClassArg>)
    requires ' ' !in scope
    requires forall i :: 0 <= i < |classes| && classes[i].Name? ==> ' ' !in classes[i].name
    requires Names(classes) != []
    ensures Strings.Split(ScopedClasses(scope, classes), ' ') == Prefixed(scope, Names(classes))
  {
    var names := Names(classes);
    NamesHaveNoSpace(classes);
    var pieces := Prefixed(scope, names);
    forall k | 0 <= k < |pieces|
      ensures ' ' !in pieces[k]
    {
      assert pieces[k] == scope + names[k];
    }
    Strings.SplitJoin(pieces, ' ');
  }

  lemma {:induction false} NamesHaveNoSpace(classes: seq<ClassArg>)
    requires forall i :: 0 <= i < |classes| && classes[i].Name? ==> ' ' !in classes[i].name
    ensures forall k :: 0 <= k < |Names(classes)| ==> ' ' !in Names(classes)[k]
  {
    if |classes| > 0 {
      NamesHaveNoSpace(classes[1..]);
    }
  }

  /** `scoped("cell", null, "active", false)` with scope `"grid-"`. */
  lemma CellActiveExample()
    ensures ScopedClasses("grid-", [Name("cell"), Null, Name("active"), False]) == "grid-cell grid-active"
  {
    var classes := [Name("cell"), Null, Name("active"), False];
    assert classes[1..][1..][1..] == [False];
    assert Names(classes) == ["cell", "active"];
  }
}

=== FILE: strings.dfy ===
/** `Array.prototype.join` and its inverse `String.prototype.split` for a one-character separator. */
module Strings {

  /** `pieces.join(sep)`: the pieces in order, with `sep` between neighbours. */
  function Join(pieces: seq<string>, sep: string): (r: string)
    ensures |pieces| == 0 ==> r == ""
    ensures |pieces| == 1 ==> r == pieces[0]
  {
    if |pieces| == 0 then ""
    else if |pieces| == 1 then pieces[0]
    else pieces[0] + sep + Join(pieces[1..], sep)
  }

  /** Index of the first `c` in `s`. */
  function IndexOf(s: string, c: char): (r: nat)
    requires c in s
    ensures r < |s| && s[r] == c
    ensures forall k :: 0 <= k < r ==> s[k] != c
  {
    if s[0] == c then 0
    else
      assert c in s[1..];
      1 + IndexOf(s[1..], c)
  }

  /** `s.split(c)`: the maximal runs of `s` that hold no `c`, in order. */
  function Split(s: string, c: char): (r: seq<string>)
    ensures |r| > 0
    ensures forall k :: 0 <= k < |r| ==> c !in r[k]
    decreases |s|
  {
    if c !in s then [s]
    else
      var i := IndexOf(s, c);
      [s[..i]] + Split(s[i + 1..], c)
  }

  /** Splitting a join undoes it when no piece holds the separator. */
  lemma {:induction false} SplitJoin(pieces: seq<string>, c: char)
    requires |pieces| > 0
    requires forall k :: 0 <= k < |pieces| ==> c !in pieces[k]
    ensures Split(Join(pieces, [c]), c) == pieces
    decreases |pieces|
  {
    if |pieces| > 1 {
      var rest := Join(pieces[1..], [c]);
      var s := pieces[0] + [c] + rest;
      assert s[|pieces[0]|] == c;
      assert s[..|pieces[0]|] == pieces[0];
      assert forall k :: 0 <= k < |pieces[0]| ==> s[k] == pieces[0][k];
      assert c in s;
      assert IndexOf(s, c) == |pieces[0]| by {
        IndexOfIsFirst(s, c, |pieces[0]|);
      }
      assert s[|pieces[0]| + 1..] == rest;
      SplitJoin(pieces[1..], c);
      assert [pieces[0]] + pieces[1..] == pieces;
    }
  }

  /** Joining a split gives the string back. */
  lemma {:induction false} JoinSplit(s: string, c: char)
    ensures Join(Split(s, c), [c]) == s
    decreases |s|
  {
    if c in s {
      var i := IndexOf(s, c);
      var tail := Split(s[i + 1..], c);
      JoinSplit(s[i + 1..], c);
      assert Split(s, c) == [s[..i]] + tail;
      assert ([s[..i]] + tail)[1..] == tail;
      assert s == s[..i] + [c] + s[i + 1..];
    }
  }

  lemma IndexOfIsFirst(s: string, c: char, i: nat)
    requires i < |s| && s[i] == c
    requires forall k :: 0 <= k < i ==> s[k] != c
    ensures IndexOf(s, c) == i
  {
  }
}

=== FILE: virtualized_areas.dfy ===
/**
 * The band partitioner of `calculateVirtualizedAreas`: one axis split into a
 * leading frozen band, a scrollable band and a trailing frozen band.
 */
module VirtualizedAreas {
  import opened Wrappers
  import Js
  import ArrayHelpers
  import opened DimensionRanges
  import opened VisibleWindow

  /** `IndexedItem`: an item paired with its position in the full list. */
  datatype Indexed<T> = Indexed(item: T, index: nat)

  /** `indexItems`: pairs every item with its index. */
  function IndexItems<T>(items: seq<T>): (r: seq<Indexed<T>>)
    ensures |r| == |items|
    ensures forall i :: 0 <= i < |items| ==> r[i] == Indexed(items[i], i)
  {
    seq(|items|, i requires 0 <= i < |items| => Indexed(items[i], i))
  }

  /** `VirtualizedAreaData`, with every accessor read once. */
  datatype AreaData<T> = AreaData(
    indexedItems: seq<Indexed<T>>,
    visibleIndexedItems: seq<Indexed<T>>,
    areaSize: int,
    totalItemSize: int,
    positionOffset: int,
    scrollPosition: int)

  datatype Areas<T> = Areas(firstFrozen: AreaData<T>, unfrozen: AreaData<T>, secondFrozen: AreaData<T>)

  /** `count ?? 0`; an absent count and a count of 0 are both falsy. */
  function Count(count: Option<nat>): nat {
    count.GetOr(0)
  }

  /** `range?.start ?? 0` */
  function StartOrZero(r: Option<Range>): int {
    if r.Some? then r.value.start else 0
  }

  /** `range?.end ?? 0` */
  function EndOrZero(r: Option<Range>): int {
    if r.Some? then r.value.end else 0
  }

  /** `itemDimensions()[item.index()]` */
  function DimensionOf<T>(dims: seq<Range>, x: Indexed<T>): Range {
    if x.index < |dims| then dims[x.index] else EmptyRange
  }

  /** The `getItemDimensionRange` both band computations hand to the visible-window scan. */
  function RangeLookup<T>(dims: seq<Range>): Indexed<T> -> Range {
    x => DimensionOf(dims, x)
  }

  /**
   * `sizeOfFirstFrozenArea`: reads `dims[0].start` and `dims[F1 - 1].end`
   * without optional chaining, so a leading count beyond the list throws.
   */
  function SizeOfFirstFrozenArea(frozenCountAtStart: Option<nat>, dims: seq<Range>, n: nat): Result<int> {
    var f1 := Count(frozenCountAtStart);
    if f1 == 0 then Success(0)
    else if n == 0 then Success(0)
    else
      var from := Js.At(dims, 0);
      var to := Js.At(dims, f1 - 1);
      if from.None? || to.None? then Failure(UndefinedPropertyRead)
      else Success(to.value.end - from.value.start)
  }

  /** `sizeOfSecondFrozenArea`: optional chaining turns a missing range into 0. */
  function SizeOfSecondFrozenArea(frozenCountAtEnd: Option<nat>, dims: seq<Range>, n: nat): int {
    var f2 := Count(frozenCountAtEnd);
    if f2 == 0 then 0
    else if n == 0 then 0
    else
      var lastUnfrozenIndex := n - f2 - 1;
      EndOrZero(Js.At(dims, n - 1)) - StartOrZero(Js.At(dims, lastUnfrozenIndex + 1))
  }

  /** `sizeOfUnfrozenItems`: from the start of the first unfrozen item to the end of the last one. */
  function SizeOfUnfrozenItems(frozenCountAtStart: Option<nat>, frozenCountAtEnd: Option<nat>, dims: seq<Range>, n: nat): int {
    if n == 0 then 0
    else
      var firstUnfrozenIndex := Count(frozenCountAtStart);
      var lastUnfrozenIndex := n - Count(frozenCountAtEnd) - 1;
      EndOrZero(Js.At(dims, lastUnfrozenIndex)) - StartOrZero(Js.At(dims, firstUnfrozenIndex))
  }

  /**
   * `calculateVirtualizedAreas` with every accessor read once. The frozen
   * bands show all their items and never scroll; only the scrollable band is
   * windowed, with its window re-based by the leading frozen size. The only
   * way it throws is a leading count larger than a non-empty list.
   */
  function CalculateVirtualizedAreas<T>(
    frozenCountAtStart: Option<nat>,
    frozenCountAtEnd: Option<nat>,
    itemDimensions: seq<Range>,
    availableSize: int,
    items: seq<T>,
    scrollPosition: int): (r: Result<Areas<T>>)
    requires |itemDimensions| == |items|
    ensures r.Failure? <==> 0 < |items| < Count(frozenCountAtStart)
    ensures r.Success? ==>
      var a := r.value;
      && a.firstFrozen.visibleIndexedItems == a.firstFrozen.indexedItems
      && a.secondFrozen.visibleIndexedItems == a.secondFrozen.indexedItems
      && a.firstFrozen.scrollPosition == 0 && a.secondFrozen.scrollPosition == 0
      && a.unfrozen.scrollPosition == scrollPosition
      && a.firstFrozen.positionOffset == 0
      && a.unfrozen.positionOffset == a.firstFrozen.areaSize
      && a.secondFrozen.positionOffset == a.firstFrozen.areaSize + a.unfrozen.totalItemSize
      && a.firstFrozen.totalItemSize == a.firstFrozen.areaSize
      && a.secondFrozen.totalItemSize == a.secondFrozen.areaSize
      && a.unfrozen.areaSize == availableSize - a.firstFrozen.areaSize - a.secondFrozen.areaSize
      && a.unfrozen.visibleIndexedItems
         == VisibleItems(a.unfrozen.indexedItems, RangeLookup(itemDimensions),
                         scrollPosition + a.firstFrozen.areaSize, a.unfrozen.areaSize)
  {
    var n := |items|;
    var firstUnfrozenIndex := Count(frozenCountAtStart);
    var lastUnfrozenIndex := n - Count(frozenCountAtEnd) - 1;
    var sizeOfFirstFrozenArea :- SizeOfFirstFrozenArea(frozenCountAtStart, itemDimensions, n);
    var sizeOfSecondFrozenArea := SizeOfSecondFrozenArea(frozenCountAtEnd, itemDimensions, n);
    var sizeOfUnfrozenArea := availableSize - sizeOfFirstFrozenArea - sizeOfSecondFrozenArea;
    var sizeOfUnfrozenItems := SizeOfUnfrozenItems(frozenCountAtStart, frozenCountAtEnd, itemDimensions, n);
    var indexedItems := IndexItems(items);
    var firstFrozenItems := Js.Slice(indexedItems, 0, firstUnfrozenIndex);
    var unfrozenIndexedItems := Js.Slice(indexedItems, firstUnfrozenIndex, lastUnfrozenIndex + 1);
    var secondFrozenIndexedItems := Js.SliceFrom(indexedItems, lastUnfrozenIndex + 1);
    var visibleIndexedItems :=
      VisibleItems(unfrozenIndexedItems, RangeLookup(itemDimensions),
                   scrollPosition + sizeOfFirstFrozenArea, sizeOfUnfrozenArea);
    Success(Areas(
      AreaData(firstFrozenItems, firstFrozenItems, sizeOfFirstFrozenArea, sizeOfFirstFrozenArea, 0, 0),
      AreaData(unfrozenIndexedItems, visibleIndexedItems, sizeOfUnfrozenArea, sizeOfUnfrozenItems,
               sizeOfFirstFrozenArea, scrollPosition),
      AreaData(secondFrozenIndexedItems, secondFrozenIndexedItems, sizeOfSecondFrozenArea, sizeOfSecondFrozenArea,
               sizeOfFirstFrozenArea + sizeOfUnfrozenItems, 0)))
  }

  /** The leading size throws exactly when a non-empty list has fewer items than the leading count. */
  lemma FirstFrozenSizeThrowsIff(frozenCountAtStart: Option<nat>, dims: seq<Range>)
    ensures SizeOfFirstFrozenArea(frozenCountAtStart, dims, |dims|).Failure? <==> 0 < |dims| < Count(frozenCountAtStart)
  {
  }

  /** The band data of a successful partition, read off component by component. */
  lemma AreasFields<T>(
    frozenCountAtStart: Option<nat>, frozenCountAtEnd: Option<nat>, itemDimensions: seq<Range>,
    availableSize: int, items: seq<T>, scrollPosition: int)
    requires |itemDimensions| == |items|
    requires !(0 < |items| < Count(frozenCountAtStart))
    ensures
      var r := CalculateVirtualizedAreas(frozenCountAtStart, frozenCountAtEnd, itemDimensions,
                                         availableSize, items, scrollPosition);
      var n, f1, f2 := |items|, Count(frozenCountAtStart), Count(frozenCountAtEnd);
      && r.Success?
      && SizeOfFirstFrozenArea(frozenCountAtStart, itemDimensions, n).Success?
      && r.value.firstFrozen.areaSize == SizeOfFirstFrozenArea(frozenCountAtStart, itemDimensions, n).value
      && r.value.secondFrozen.areaSize == SizeOfSecondFrozenArea(frozenCountAtEnd, itemDimensions, n)
      && r.value.unfrozen.totalItemSize
         == SizeOfUnfrozenItems(frozenCountAtStart, frozenCountAtEnd, itemDimensions, n)
      && r.value.firstFrozen.indexedItems == Js.Slice(IndexItems(items), 0, f1)
      && r.value.unfrozen.indexedItems == Js.Slice(IndexItems(items), f1, n - f2)
      && r.value.secondFrozen.indexedItems == Js.SliceFrom(IndexItems(items), n - f2)
  {
  }

  /**
   * When the frozen counts fit (`F1 + F2 <= N`), the three bands are
   * consecutive slices of the indexed items: `F1` leading, `F2` trailing and
   * the rest scrollable, together exactly the whole list.
   */
  lemma BandsTileItems<T>(
    frozenCountAtStart: Option<nat>, frozenCountAtEnd: Option<nat>, itemDimensions: seq<Range>,
    availableSize: int, items: seq<T>, scrollPosition: int)
    requires |itemDimensions| == |items|
    requires Count(frozenCountAtStart) + Count(frozenCountAtEnd) <= |items|
    ensures
      var r := CalculateVirtualizedAreas(frozenCountAtStart, frozenCountAtEnd, itemDimensions,
                                         availableSize, items, scrollPosition);
      && r.Success?
      && r.value.firstFrozen.indexedItems + r.value.unfrozen.indexedItems + r.value.secondFrozen.indexedItems
         == IndexItems(items)
      && |r.value.firstFrozen.indexedItems| == Count(frozenCountAtStart)
      && |r.value.secondFrozen.indexedItems| == Count(frozenCountAtEnd)
      && |r.value.unfrozen.indexedItems| == |items| - Count(frozenCountAtStart) - Count(frozenCountAtEnd)
  {
    var n := |items|;
    var f1, f2 := Count(frozenCountAtStart), Count(frozenCountAtEnd);
    AreasFields(frozenCountAtStart, frozenCountAtEnd, itemDimensions, availableSize, items, scrollPosition);
    Js.SlicesTile(IndexItems(items), f1, n - f2);
  }

  /**
   * The frozen band sizes read the ranges at the band edges: leading is
   * `dims[F1-1].end - dims[0].start`, trailing `dims[N-1].end - dims[N-F2].start`,
   * each 0 when its count is absent or 0 or the list is empty.
   */
  lemma FrozenBandSizes<T>(
    frozenCountAtStart: Option<nat>, frozenCountAtEnd: Option<nat>, itemDimensions: seq<Range>,
    availableSize: int, items: seq<T>, scrollPosition: int)
    requires |itemDimensions| == |items|
    requires Count(frozenCountAtStart) + Count(frozenCountAtEnd) <= |items|
    ensures
      var r := CalculateVirtualizedAreas(frozenCountAtStart, frozenCountAtEnd, itemDimensions,
                                         availableSize, items, scrollPosition);
      var n, f1, f2 := |items|, Count(frozenCountAtStart), Count(frozenCountAtEnd);
      && r.Success?
      && r.value.firstFrozen.areaSize
         == (if f1 == 0 || n == 0 then 0 else itemDimensions[f1 - 1].end - itemDimensions[0].start)
      && r.value.secondFrozen.areaSize
         == (if f2 == 0 || n == 0 then 0 else itemDimensions[n - 1].end - itemDimensions[n - f2].start)
  {
    AreasFields(frozenCountAtStart, frozenCountAtEnd, itemDimensions, availableSize, items, scrollPosition);
  }

  /**
   * Over a prefix layout, each band's content size is the sum of its own
   * items' sizes, and with a non-empty scrollable band the three add up to the
   * end of the last range.
   */
  lemma BandSizesArePartialSums<T>(
    frozenCountAtStart: Option<nat>, frozenCountAtEnd: Option<nat>, sizes: seq<int>, itemDimensions: seq<Range>,
    availableSize: int, items: seq<T>, scrollPosition: int)
    requires |itemDimensions| == |items|
    requires IsPrefixLayout(sizes, itemDimensions)
    requires Count(frozenCountAtStart) + Count(frozenCountAtEnd) < |items|
    ensures
      var r := CalculateVirtualizedAreas(frozenCountAtStart, frozenCountAtEnd, itemDimensions,
                                         availableSize, items, scrollPosition);
      var n, f1, f2 := |items|, Count(frozenCountAtStart), Count(frozenCountAtEnd);
      && r.Success?
      && r.value.firstFrozen.areaSize == ArrayHelpers.Sum(sizes[..f1])
      && r.value.unfrozen.totalItemSize == ArrayHelpers.Sum(sizes[f1..n - f2])
      && r.value.secondFrozen.areaSize == ArrayHelpers.Sum(sizes[n - f2..])
      && r.value.firstFrozen.areaSize + r.value.unfrozen.totalItemSize + r.value.secondFrozen.areaSize
         == itemDimensions[n - 1].end
  {
    var n, f1, f2 := |items|, Count(frozenCountAtStart), Count(frozenCountAtEnd);
    AreasFields(frozenCountAtStart, frozenCountAtEnd, itemDimensions, availableSize, items, scrollPosition);
    LeadingSizeIsSum(frozenCountAtStart, sizes, itemDimensions);
    TrailingSizeIsSum(frozenCountAtEnd, sizes, itemDimensions);
    ScrollableContentIsSum(frozenCountAtStart, frozenCountAtEnd, sizes, itemDimensions);
    BandSizesTotal(frozenCountAtStart, frozenCountAtEnd, sizes, itemDimensions);
  }

  lemma BandSizesTotal(
    frozenCountAtStart: Option<nat>, frozenCountAtEnd: Option<nat>, sizes: seq<int>, itemDimensions: seq<Range>)
    requires IsPrefixLayout(sizes, itemDimensions)
    requires Count(frozenCountAtStart) + Count(frozenCountAtEnd) < |itemDimensions|
    ensures
      var n := |itemDimensions|;
      SizeOfFirstFrozenArea(frozenCountAtStart, itemDimensions, n).Success?
      && SizeOfFirstFrozenArea(frozenCountAtStart, itemDimensions, n).value
         + SizeOfUnfrozenItems(frozenCountAtStart, frozenCountAtEnd, itemDimensions, n)
         + SizeOfSecondFrozenArea(frozenCountAtEnd, itemDimensions, n)
         == itemDimensions[n - 1].end
  {
    var n, f1, f2 := |itemDimensions|, Count(frozenCountAtStart), Count(frozenCountAtEnd);
    LeadingSizeIsSum(frozenCountAtStart, sizes, itemDimensions);
    TrailingSizeIsSum(frozenCountAtEnd, sizes, itemDimensions);
    ScrollableContentIsSum(frozenCountAtStart, frozenCountAtEnd, sizes, itemDimensions);
    ArrayHelpers.SumOfThreeParts(sizes, f1, n - f2);
    LastRangeEndIsTotal(sizes, itemDimensions);
  }

  lemma LeadingSizeIsSum(frozenCountAtStart: Option<nat>, sizes: seq<int>, itemDimensions: seq<Range>)
    requires IsPrefixLayout(sizes, itemDimensions)
    requires Count(frozenCountAtStart) <= |itemDimensions|
    ensures SizeOfFirstFrozenArea(frozenCountAtStart, itemDimensions, |itemDimensions|)
            == Success(ArrayHelpers.Sum(sizes[..Count(frozenCountAtStart)]))
  {
    var f1 := Count(frozenCountAtStart);
    if f1 > 0 {
      LayoutIsPrefixSums(sizes, itemDimensions, 0);
      LayoutIsPrefixSums(sizes, itemDimensions, f1 - 1);
    }
  }

  lemma TrailingSizeIsSum(frozenCountAtEnd: Option<nat>, sizes: seq<int>, itemDimensions: seq<Range>)
    requires IsPrefixLayout(sizes, itemDimensions)
    requires Count(frozenCountAtEnd) <= |itemDimensions|
    ensures SizeOfSecondFrozenArea(frozenCountAtEnd, itemDimensions, |itemDimensions|)
            == ArrayHelpers.Sum(sizes[|sizes| - Count(frozenCountAtEnd)..])
  {
    var n, f2 := |itemDimensions|, Count(frozenCountAtEnd);
    if f2 > 0 {
      LayoutIsPrefixSums(sizes, itemDimensions, n - f2);
      LayoutIsPrefixSums(sizes, itemDimensions, n - 1);
      ArrayHelpers.SumOfSlice(sizes, n - f2, n);
      assert sizes[..n] == sizes;
      assert sizes[n - f2..n] == sizes[n - f2..];
    }
  }

  lemma ScrollableContentIsSum(
    frozenCountAtStart: Option<nat>, frozenCountAtEnd: Option<nat>, sizes: seq<int>, itemDimensions: seq<Range>)
    requires IsPrefixLayout(sizes, itemDimensions)
    requires Count(frozenCountAtStart) + Count(frozenCountAtEnd) < |itemDimensions|
    ensures SizeOfUnfrozenItems(frozenCountAtStart, frozenCountAtEnd, itemDimensions, |itemDimensions|)
            == ArrayHelpers.Sum(sizes[Count(frozenCountAtStart)..|sizes| - Count(frozenCountAtEnd)])
  {
    var n, f1, f2 := |itemDimensions|, Count(frozenCountAtStart), Count(frozenCountAtEnd);
    LayoutIsPrefixSums(sizes, itemDimensions, f1);
    LayoutIsPrefixSums(sizes, itemDimensions, n - f2 - 1);
    ArrayHelpers.SumOfSlice(sizes, f1, n - f2);
  }

  /**
   * Ten columns of width 100, two frozen at the start and one at the end, in
   * 350 pixels: 200 leading, 100 trailing, a 50-pixel scrollable viewport over
   * 700 pixels of content.
   */
  lemma TenColumnsExample()
    ensures
      var dims := seq(10, i => Range(100 * i, 100, 100 * i + 100));
      var r := CalculateVirtualizedAreas(Some(2), Some(1), dims, 350, seq(10, i => i), 0);
      && r.Success?
      && r.value.firstFrozen.areaSize == 200
      && r.value.secondFrozen.areaSize == 100
      && r.value.unfrozen.areaSize == 50
      && r.value.unfrozen.totalItemSize == 700
  {
    var dims := seq(10, i => Range(100 * i, 100, 100 * i + 100));
    var items := seq(10, i => i);
    assert dims[1].end == 200 && dims[9].end == 1000 && dims[9].start == 900 && dims[8].end == 900;
    assert dims[0].start == 0 && dims[2].start == 200;
    assert SizeOfFirstFrozenArea(Some(2), dims, 10) == Success(200);
    assert SizeOfSecondFrozenArea(Some(1), dims, 10) == 100;
    assert SizeOfUnfrozenItems(Some(2), Some(1), dims, 10) == 700;
    AreasFields(Some(2), Some(1), dims, 350, items, 0);
  }

  /**
   * Over a prefix layout with non-negative sizes, any run of consecutive
   * indexed items — in particular the scrollable band `[F1, N - F2)` that
   * `AreasFields` names — sits back to back, so the band's visible items are
   * exactly those overlapping the re-based window (`VisibleItemsAreOverlapping`).
   */
  lemma ConsecutiveItemsAreContiguous<T>(sizes: seq<int>, itemDimensions: seq<Range>, items: seq<T>, a: nat, b: nat)
    requires |itemDimensions| == |items|
    requires IsPrefixLayout(sizes, itemDimensions)
    requires forall k :: 0 <= k < |sizes| ==> sizes[k] >= 0
    requires a <= b <= |items|
    ensures Contiguous(IndexItems(items)[a..b], RangeLookup(itemDimensions))
  {
    var band := IndexItems(items)[a..b];
    var getRange: Indexed<T> -> Range := RangeLookup(itemDimensions);
    forall k | 0 <= k < |band|
      ensures getRange(band[k]).size >= 0
    {
      assert band[k].index == a + k;
    }
    forall k | 0 < k < |band|
      ensures FollowsPrevious(band, getRange, k)
    {
      assert band[k].index == a + k && band[k - 1].index == a + k - 1;
    }
  }
}

=== FILE: virtualized_grid.dfy ===
/**
 * The pure derivations of the `VirtualizedGrid` component: its own copy of
 * the band arithmetic for rows and columns, the scroll extent and cell
 * placement. Its last-unfrozen index is `N - leading - trailing`, one more
 * than in `calculateVirtualizedAreas`.
 */
module VirtualizedGrid {
  import opened Wrappers
  import Js
  import ArrayHelpers
  import opened DimensionRanges
  import opened VisibleWindow
  import opened VirtualizedAreas

  /** The optional `frozenAreas` prop. */
  datatype FrozenAreas = FrozenAreas(top: Option<nat>, right: Option<nat>, bottom: Option<nat>, left: Option<nat>)

  datatype Side = Top | Right | Bottom | Left

  /** `props.frozenAreas?.<side> ?? 0` */
  function Edge(frozenAreas: Option<FrozenAreas>, side: Side): nat {
    match frozenAreas
    case None => 0
    case Some(f) =>
      Count(match side
            case Top => f.top
            case Right => f.right
            case Bottom => f.bottom
            case Left => f.left)
  }

  /** One entry of `verticalConfig` / `horizontalConfig`, plus the band's descriptors. */
  datatype Band<T> = Band(
    descriptors: seq<Indexed<T>>,
    visibleDescriptors: seq<Indexed<T>>,
    size: int,
    contentSize: int,
    offset: int)

  datatype Axis<T> = Axis(leading: Band<T>, mid: Band<T>, trailing: Band<T>)

  /** `lastUnfrozenColumnIndex` / `lastUnfrozenRowIndex`, without the `- 1`. */
  function LastUnfrozenIndex(n: nat, leading: nat, trailing: nat): int {
    n - leading - trailing
  }

  /** `widthOfRightFrozenColumns` / `heightOfBottomFrozenRows`: plain indexing, so a missing range throws. */
  function TrailingFrozenSize(leading: nat, trailing: nat, dims: seq<Range>, n: nat): Result<int> {
    if trailing == 0 then Success(0)
    else if n == 0 then Success(0)
    else
      var from := Js.At(dims, LastUnfrozenIndex(n, leading, trailing) + 1);
      var to := Js.At(dims, n - 1);
      if from.None? || to.None? then Failure(UndefinedPropertyRead)
      else Success(to.value.end - from.value.start)
  }

  /** `widthOfUnfrozenColumns` / `heightOfUnfrozenRows`: plain indexing, so a missing range throws. */
  function UnfrozenContentSize(leading: nat, trailing: nat, dims: seq<Range>, n: nat): Result<int> {
    if n == 0 then Success(0)
    else
      var from := Js.At(dims, leading);
      var to := Js.At(dims, LastUnfrozenIndex(n, leading, trailing));
      if from.None? || to.None? then Failure(UndefinedPropertyRead)
      else Success(to.value.end - from.value.start)
  }

  /**
   * The band configuration of one axis (columns with left/right, rows with
   * top/bottom). Frozen bands show all their descriptors; the middle band is
   * windowed from `scroll + leading size` over the container size.
   */
  function AxisBands<T>(
    leadingCount: nat, trailingCount: nat, items: seq<T>, dims: seq<Range>,
    viewportSize: int, scroll: int): (r: Result<Axis<T>>)
    requires |dims| == |items|
    ensures r.Success? ==>
      var a := r.value;
      && a.leading.visibleDescriptors == a.leading.descriptors
      && a.trailing.visibleDescriptors == a.trailing.descriptors
      && a.leading.contentSize == a.leading.size
      && a.trailing.contentSize == a.trailing.size
      && a.leading.offset == 0
      && a.mid.offset == a.leading.size
      && a.trailing.offset == a.leading.size + a.mid.contentSize
      && a.mid.size == viewportSize - a.leading.size - a.trailing.size
      && a.mid.visibleDescriptors
         == VisibleItems(a.mid.descriptors, RangeLookup(dims), scroll + a.leading.size, a.mid.size)
  {
    var n := |items|;
    var firstUnfrozenIndex := leadingCount;
    var lastUnfrozenIndex := LastUnfrozenIndex(n, leadingCount, trailingCount);
    var leadingSize :- SizeOfFirstFrozenArea(Some(leadingCount), dims, n);
    var trailingSize :- TrailingFrozenSize(leadingCount, trailingCount, dims, n);
    var containerSize := viewportSize - leadingSize - trailingSize;
    var contentSize :- UnfrozenContentSize(leadingCount, trailingCount, dims, n);
    var descriptors := IndexItems(items);
    var leadingDescriptors := Js.Slice(descriptors, 0, firstUnfrozenIndex);
    var midDescriptors := Js.Slice(descriptors, firstUnfrozenIndex, lastUnfrozenIndex + 1);
    var trailingDescriptors := Js.SliceFrom(descriptors, lastUnfrozenIndex + 1);
    var visibleMid := VisibleItems(midDescriptors, RangeLookup(dims), scroll + leadingSize, containerSize);
    Success(Axis(
      Band(leadingDescriptors, leadingDescriptors, leadingSize, leadingSize, 0),
      Band(midDescriptors, visibleMid, containerSize, contentSize, leadingSize),
      Band(trailingDescriptors, trailingDescriptors, trailingSize, trailingSize, leadingSize + contentSize)))
  }

  /** Everything the component derives before rendering its nine areas. */
  datatype GridLayout<R, C> = GridLayout(
    columnDimensions: seq<Range>,
    rowDimensions: seq<Range>,
    columns: Axis<C>,
    rows: Axis<R>,
    scrollWidth: int,
    scrollHeight: int)

  /**
   * The component's derivations for one render: column and row ranges from
   * the local `cumulateSizes`, both axes' bands (the measured grid size and
   * scroll offsets are parameters), and the scroll-bar extent from the last
   * ranges, which is the total of all widths and of all heights.
   */
  function LayoutGrid<R, C>(
    rows: seq<R>, columns: seq<C>, getRowHeight: R -> int, getColumnWidth: C -> int,
    frozenAreas: Option<FrozenAreas>, gridWidth: int, gridHeight: int,
    scrollLeft: int, scrollTop: int): (r: Result<GridLayout<R, C>>)
    ensures r.Success? ==>
      && IsPrefixLayout(Sizes(columns, getColumnWidth), r.value.columnDimensions)
      && IsPrefixLayout(Sizes(rows, getRowHeight), r.value.rowDimensions)
      && r.value.scrollWidth == ArrayHelpers.Sum(Sizes(columns, getColumnWidth))
      && r.value.scrollHeight == ArrayHelpers.Sum(Sizes(rows, getRowHeight))
  {
    var columnDimensions := CumulateSizes(Sizes(columns, getColumnWidth));
    var rowDimensions := CumulateSizes(Sizes(rows, getRowHeight));
    CumulateSizesIsPrefixLayout(Sizes(columns, getColumnWidth));
    CumulateSizesIsPrefixLayout(Sizes(rows, getRowHeight));
    LastRangeEndIsTotal(Sizes(columns, getColumnWidth), columnDimensions);
    LastRangeEndIsTotal(Sizes(rows, getRowHeight), rowDimensions);
    var columnAxis :- AxisBands(Edge(frozenAreas, Left), Edge(frozenAreas, Right),
                                columns, columnDimensions, gridWidth, scrollLeft);
    var rowAxis :- AxisBands(Edge(frozenAreas, Top), Edge(frozenAreas, Bottom),
                             rows, rowDimensions, gridHeight, scrollTop);
    Success(GridLayout(columnDimensions, rowDimensions, columnAxis, rowAxis,
                       LastRange(columnDimensions).end, LastRange(rowDimensions).end))
  }

  /** The absolute position and size of one cell inside its area. */
  datatype CellStyle = CellStyle(left: int, top: int, width: int, height: int)

  /**
   * The style `GridArea` gives a cell: its column's and row's sizes, at
   * their starts shifted into the area by the bands' position offsets, so
   * that adding the offsets back gives the cell's place in the whole grid.
   */
  function PlaceCell(column: Range, row: Range, offsetLeft: int, offsetTop: int): (r: CellStyle)
    ensures r.width == column.size && r.height == row.size
    ensures r.left + offsetLeft == column.start && r.top + offsetTop == row.start
  {
    CellStyle(column.start - offsetLeft, row.start - offsetTop, column.size, row.size)
  }

  /**
   * When a band's offset is the start of its first item, as the bands'
   * `positionOffset`s are, a cell sits after exactly the columns and rows of
   * its band that come before it: the band's first cell is at the area's
   * origin and each cell starts where its predecessor ends.
   */
  lemma CellSitsAfterBandPredecessors(
    columnSizes: seq<int>, columnDims: seq<Range>, firstColumn: nat, j: nat,
    rowSizes: seq<int>, rowDims: seq<Range>, firstRow: nat, k: nat)
    requires IsPrefixLayout(columnSizes, columnDims) && firstColumn <= j < |columnDims|
    requires IsPrefixLayout(rowSizes, rowDims) && firstRow <= k < |rowDims|
    ensures
      var c := PlaceCell(columnDims[j], rowDims[k], columnDims[firstColumn].start, rowDims[firstRow].start);
      && c.left == ArrayHelpers.Sum(columnSizes[firstColumn..j])
      && c.top == ArrayHelpers.Sum(rowSizes[firstRow..k])
      && c.width == columnSizes[j] && c.height == rowSizes[k]
  {
    LayoutIsPrefixSums(columnSizes, columnDims, firstColumn);
    LayoutIsPrefixSums(columnSizes, columnDims, j);
    LayoutIsPrefixSums(rowSizes, rowDims, firstRow);
    LayoutIsPrefixSums(rowSizes, rowDims, k);
    ArrayHelpers.SumOfSlice(columnSizes, firstColumn, j);
    ArrayHelpers.SumOfSlice(rowSizes, firstRow, k);
  }

  /**
   * The trailing size reads `dims[N - leading - trailing + 1]`, so it throws
   * on a non-empty list with a trailing count unless `2 <= leading + trailing <= N + 1`.
   */
  lemma TrailingFrozenSizeThrowsIff(leading: nat, trailing: nat, dims: seq<Range>)
    ensures TrailingFrozenSize(leading, trailing, dims, |dims|).Failure? <==>
      0 < trailing && 0 < |dims| && (leading + trailing <= 1 || |dims| + 1 < leading + trailing)
  {
  }

  /**
   * The unfrozen size reads `dims[leading]` and `dims[N - leading - trailing]`,
   * so on a non-empty list it throws unless `leading < N` and `1 <= leading + trailing <= N`.
   */
  lemma UnfrozenContentSizeThrowsIff(leading: nat, trailing: nat, dims: seq<Range>)
    ensures UnfrozenContentSize(leading, trailing, dims, |dims|).Failure? <==>
      0 < |dims| && (leading + trailing == 0 || |dims| < leading + trailing || |dims| <= leading)
  {
  }

  /** Bands are only computed when every size read succeeds. */
  lemma AxisBandsSucceedsWithSizes<T>(
    leadingCount: nat, trailingCount: nat, items: seq<T>, dims: seq<Range>, viewportSize: int, scroll: int)
    requires |dims| == |items|
    ensures AxisBands(leadingCount, trailingCount, items, dims, viewportSize, scroll).Success? <==>
      && SizeOfFirstFrozenArea(Some(leadingCount), dims, |items|).Success?
      && TrailingFrozenSize(leadingCount, trailingCount, dims, |items|).Success?
      && UnfrozenContentSize(leadingCount, trailingCount, dims, |items|).Success?
  {
  }

  /**
   * The band arithmetic throws exactly when one of its plain index reads
   * misses: for a non-empty list, unless `leading < N`,
   * `1 <= leading + trailing <= N` and not (`leading = 0` and `trailing = 1`).
   * In particular a grid with no frozen edge at all throws.
   */
  lemma AxisBandsThrowsIff<T>(
    leadingCount: nat, trailingCount: nat, items: seq<T>, dims: seq<Range>, viewportSize: int, scroll: int)
    requires |dims| == |items|
    ensures AxisBands(leadingCount, trailingCount, items, dims, viewportSize, scroll).Success? <==>
      (|items| == 0 ||
       (leadingCount < |items| && 1 <= leadingCount + trailingCount <= |items|
        && !(leadingCount == 0 && trailingCount == 1)))
  {
    AxisBandsSucceedsWithSizes(leadingCount, trailingCount, items, dims, viewportSize, scroll);
  }

  /** The bands of a successful axis, read off component by component. */
  lemma AxisBandsFields<T>(
    leadingCount: nat, trailingCount: nat, items: seq<T>, dims: seq<Range>, viewportSize: int, scroll: int)
    requires |dims| == |items|
    requires AxisBands(leadingCount, trailingCount, items, dims, viewportSize, scroll).Success?
    ensures
      var a := AxisBands(leadingCount, trailingCount, items, dims, viewportSize, scroll).value;
      var n, cut := |items|, LastUnfrozenIndex(|items|, leadingCount, trailingCount) + 1;
      && a.leading.descriptors == Js.Slice(IndexItems(items), 0, leadingCount)
      && a.mid.descriptors == Js.Slice(IndexItems(items), leadingCount, cut)
      && a.trailing.descriptors == Js.SliceFrom(IndexItems(items), cut)
      && a.leading.size == SizeOfFirstFrozenArea(Some(leadingCount), dims, n).value
      && a.trailing.size == TrailingFrozenSize(leadingCount, trailingCount, dims, n).value
      && a.mid.contentSize == UnfrozenContentSize(leadingCount, trailingCount, dims, n).value
      && a.mid.size == viewportSize - a.leading.size - a.trailing.size
      && a.mid.visibleDescriptors == VisibleItems(a.mid.descriptors, RangeLookup(dims), scroll + a.leading.size, a.mid.size)
  {
  }

  /**
   * The trailing band always starts at `N - leading - trailing + 1`, so it
   * holds `leading + trailing - 1` items: the requested trailing count only
   * when exactly one item is frozen at the leading edge.
   */
  lemma TrailingBandHoldsLeadingPlusTrailingMinusOne<T>(
    leadingCount: nat, trailingCount: nat, items: seq<T>, dims: seq<Range>, viewportSize: int, scroll: int)
    requires |dims| == |items| && |items| > 0
    requires AxisBands(leadingCount, trailingCount, items, dims, viewportSize, scroll).Success?
    ensures
      var a := AxisBands(leadingCount, trailingCount, items, dims, viewportSize, scroll).value;
      && |a.trailing.descriptors| == leadingCount + trailingCount - 1
      && (|a.trailing.descriptors| == trailingCount <==> leadingCount == 1)
  {
    AxisBandsThrowsIff(leadingCount, trailingCount, items, dims, viewportSize, scroll);
    AxisBandsFields(leadingCount, trailingCount, items, dims, viewportSize, scroll);
  }

  /**
   * Without a trailing count the trailing band has size 0 but still holds
   * `leading - 1` items, which are therefore missing from the middle band.
   */
  lemma TrailingBandIsZeroSizedWithoutTrailingCount<T>(
    leadingCount: nat, items: seq<T>, dims: seq<Range>, viewportSize: int, scroll: int)
    requires |dims| == |items| && |items| > 0
    requires AxisBands(leadingCount, 0, items, dims, viewportSize, scroll).Success?
    ensures
      var a := AxisBands(leadingCount, 0, items, dims, viewportSize, scroll).value;
      && a.trailing.size == 0
      && |a.trailing.descriptors| == leadingCount - 1
  {
    TrailingBandHoldsLeadingPlusTrailingMinusOne(leadingCount, 0, items, dims, viewportSize, scroll);
    AxisBandsFields(leadingCount, 0, items, dims, viewportSize, scroll);
  }

  /** When the cut points are in order the three bands still put every item back exactly once. */
  lemma BandsTileWhenCutsOrdered<T>(
    leadingCount: nat, trailingCount: nat, items: seq<T>, dims: seq<Range>, viewportSize: int, scroll: int)
    requires |dims| == |items|
    requires AxisBands(leadingCount, trailingCount, items, dims, viewportSize, scroll).Success?
    requires leadingCount <= LastUnfrozenIndex(|items|, leadingCount, trailingCount) + 1
    ensures
      var a := AxisBands(leadingCount, trailingCount, items, dims, viewportSize, scroll).value;
      a.leading.descriptors + a.mid.descriptors + a.trailing.descriptors == IndexItems(items)
  {
    AxisBandsFields(leadingCount, trailingCount, items, dims, viewportSize, scroll);
    Js.SlicesTile(IndexItems(items), leadingCount, LastUnfrozenIndex(|items|, leadingCount, trailingCount) + 1);
  }

  /**
   * Four columns with three frozen on the left and none on the right: column
   * 2 lands in both the left and the right band, column 3 in a right band of
   * width 0, and the middle band is empty.
   */
  lemma FourColumnsThreeLeftExample()
    ensures
      var dims := seq(4, i => Range(100 * i, 100, 100 * i + 100));
      var r := AxisBands(3, 0, [10, 11, 12, 13], dims, 500, 0);
      && r.Success?
      && r.value.leading.descriptors == [Indexed(10, 0), Indexed(11, 1), Indexed(12, 2)]
      && r.value.mid.descriptors == []
      && r.value.trailing.descriptors == [Indexed(12, 2), Indexed(13, 3)]
      && r.value.trailing.size == 0
  {
    var items := [10, 11, 12, 13];
    var dims := seq(4, i => Range(100 * i, 100, 100 * i + 100));
    AxisBandsThrowsIff(3, 0, items, dims, 500, 0);
    AxisBandsFields(3, 0, items, dims, 500, 0);
    assert IndexItems(items)[2..] == [Indexed(12, 2), Indexed(13, 3)];
    assert IndexItems(items)[..3] == [Indexed(10, 0), Indexed(11, 1), Indexed(12, 2)];
  }

  /**
   * With exactly one leading item frozen the two band computations coincide:
   * same band items, sizes and offsets.
   */
  lemma AgreesWithPartitionerForOneLeading<T>(
    trailingCount: nat, items: seq<T>, dims: seq<Range>, viewportSize: int, scroll: int)
    requires |dims| == |items|
    requires AxisBands(1, trailingCount, items, dims, viewportSize, scroll).Success?
    ensures
      var a := AxisBands(1, trailingCount, items, dims, viewportSize, scroll).value;
      var r := CalculateVirtualizedAreas(Some(1), Some(trailingCount), dims, viewportSize, items, scroll);
      && r.Success?
      && a.leading.descriptors == r.value.firstFrozen.indexedItems
      && a.mid.descriptors == r.value.unfrozen.indexedItems
      && a.trailing.descriptors == r.value.secondFrozen.indexedItems
      && a.leading.size == r.value.firstFrozen.areaSize
      && a.mid.size == r.value.unfrozen.areaSize
      && a.mid.contentSize == r.value.unfrozen.totalItemSize
      && a.trailing.size == r.value.secondFrozen.areaSize
      && a.trailing.offset == r.value.secondFrozen.positionOffset
  {
    var a := AxisBands(1, trailingCount, items, dims, viewportSize, scroll).value;
    var r := CalculateVirtualizedAreas(Some(1), Some(trailingCount), dims, viewportSize, items, scroll);
    AxisBandsThrowsIff(1, trailingCount, items, dims, viewportSize, scroll);
    AxisBandsFields(1, trailingCount, items, dims, viewportSize, scroll);
    AreasFields(Some(1), Some(trailingCount), dims, viewportSize, items, scroll);
    SizesAgreeForOneLeading(trailingCount, dims);
    var b := r.value;
    assert a.leading.descriptors == b.firstFrozen.indexedItems;
    assert Count(Some(1)) == 1 && Count(Some(trailingCount)) == trailingCount;
    assert LastUnfrozenIndex(|items|, 1, trailingCount) + 1 == |items| - trailingCount;
    assert a.mid.descriptors == b.unfrozen.indexedItems;
    assert a.trailing.descriptors == b.secondFrozen.indexedItems;
    assert a.leading.size == b.firstFrozen.areaSize;
    assert a.trailing.size == b.secondFrozen.areaSize;
    assert a.mid.size == b.unfrozen.areaSize;
    assert a.mid.contentSize == b.unfrozen.totalItemSize;
    assert a.trailing.offset == b.secondFrozen.positionOffset;
  }

  lemma SizesAgreeForOneLeading(trailingCount: nat, dims: seq<Range>)
    requires TrailingFrozenSize(1, trailingCount, dims, |dims|).Success?
    requires UnfrozenContentSize(1, trailingCount, dims, |dims|).Success?
    ensures TrailingFrozenSize(1, trailingCount, dims, |dims|).value
            == SizeOfSecondFrozenArea(Some(trailingCount), dims, |dims|)
    ensures UnfrozenContentSize(1, trailingCount, dims, |dims|).value
            == SizeOfUnfrozenItems(Some(1), Some(trailingCount), dims, |dims|)
  {
  }
}

=== FILE: visible_window.dfy ===
/**
 * The visible-window scan: the run of items whose ranges overlap
 * `[start, start + size]`, found by two forward scans.
 */
module VisibleWindow {
  import opened DimensionRanges

  /** The end the scan compares against: `range.start + range.size`. */
  function ScanEnd(r: Range): int {
    r.start + r.size
  }

  /** Index of the first item at or after `i` that ends after `start`, or `|items|` when none does. */
  function FirstEndingAfter<T>(items: seq<T>, getRange: T -> Range, start: int, i: nat): (r: nat)
    requires i <= |items|
    ensures i <= r <= |items|
    ensures forall k :: i <= k < r ==> ScanEnd(getRange(items[k])) <= start
    ensures r < |items| ==> ScanEnd(getRange(items[r])) > start
    decreases |items| - i
  {
    if i == |items| then |items|
    else if ScanEnd(getRange(items[i])) > start then i
    else FirstEndingAfter(items, getRange, start, i + 1)
  }

  /** Index of the first item at or after `i` that starts after `windowEnd`, or `|items|` when none does. */
  function FirstStartingAfter<T>(items: seq<T>, getRange: T -> Range, windowEnd: int, i: nat): (r: nat)
    requires i <= |items|
    ensures i <= r <= |items|
    ensures forall k :: i <= k < r ==> getRange(items[k]).start <= windowEnd
    ensures r < |items| ==> getRange(items[r]).start > windowEnd
    decreases |items| - i
  {
    if i == |items| then |items|
    else if getRange(items[i]).start > windowEnd then i
    else FirstStartingAfter(items, getRange, windowEnd, i + 1)
  }

  /**
   * `calculateVisibleItems` with integer pixels (so `Math.floor` and
   * `Math.ceil` leave the window alone): the window is
   * `[start, start + size]`. When no item ends after `start` the first scan
   * never stops, the first index stays 0 and the whole list comes back.
   */
  function VisibleItems<T>(items: seq<T>, getRange: T -> Range, start: int, size: int): (r: seq<T>)
    ensures |items| == 0 ==> r == []
    ensures |r| <= |items|
  {
    if |items| == 0 then []
    else
      var first := FirstEndingAfter(items, getRange, start, 0);
      if first == |items| then items
      else items[first..FirstStartingAfter(items, getRange, start + size, first)]
  }

  /** When no item ends after `start`, the whole list is returned rather than none of it. */
  lemma NothingEndingAfterStartKeepsAll<T>(items: seq<T>, getRange: T -> Range, start: int, size: int)
    requires forall k :: 0 <= k < |items| ==> ScanEnd(getRange(items[k])) <= start
    ensures VisibleItems(items, getRange, start, size) == items
  {
    if |items| > 0 {
      assert FirstEndingAfter(items, getRange, start, 0) == |items|;
    }
  }

  /**
   * Whenever some item ends after `start`, the result is the slice from the
   * first such item `f` up to (not including) the first later item `t` that
   * starts after the window end; an item starting exactly at the window end
   * stays in.
   */
  lemma VisibleItemsIsWindow<T>(items: seq<T>, getRange: T -> Range, start: int, size: int, f: nat, t: nat)
    requires f < |items| && ScanEnd(getRange(items[f])) > start
    requires forall k :: 0 <= k < f ==> ScanEnd(getRange(items[k])) <= start
    requires f <= t <= |items|
    requires forall k :: f <= k < t ==> getRange(items[k]).start <= start + size
    requires t < |items| ==> getRange(items[t]).start > start + size
    ensures VisibleItems(items, getRange, start, size) == items[f..t]
  {
    var first := FirstEndingAfter(items, getRange, start, 0);
    assert first == f;
    var stop := FirstStartingAfter(items, getRange, start + size, f);
    assert stop == t;
  }

  /**
   * `calculateVisibleItems.ts`, statement by statement: a scan for the first
   * visible index, a scan (continuing from there) for the last one, then a
   * loop copying the items in between.
   */
  method CalculateVisibleItems<T>(items: seq<T>, getRange: T -> Range, startOfVisibleArea: int, sizeOfVisibleArea: int)
    returns (visibleItems: seq<T>)
    ensures visibleItems == VisibleItems(items, getRange, startOfVisibleArea, sizeOfVisibleArea)
    ensures |items| == 0 ==> visibleItems == []
    ensures exists f, t :: 0 <= f <= t <= |items| && visibleItems == items[f..t]
  {
    if |items| == 0 {
      assert items[0..0] == [];
      return [];
    }
    var start := startOfVisibleArea;
    var size := sizeOfVisibleArea;
    var end := start + size;

    var firstVisibleIndex := 0;
    var i := 0;
    while i < |items|
      invariant 0 <= i <= |items|
      invariant firstVisibleIndex == 0
      invariant forall k :: 0 <= k < i ==> ScanEnd(getRange(items[k])) <= start
    {
      var range := getRange(items[i]);
      if range.start + range.size > start {
        firstVisibleIndex := i;
        break;
      }
      i := i + 1;
    }
    assert i == FirstEndingAfter(items, getRange, start, 0);
    ghost var scanned := i;

    var lastVisibleIndex := |items| - 1;
    while i < |items|
      invariant scanned <= i <= |items|
      invariant lastVisibleIndex == |items| - 1
      invariant forall k :: scanned <= k < i ==> getRange(items[k]).start <= end
    {
      var range := getRange(items[i]);
      if range.start > end {
        lastVisibleIndex := i - 1;
        break;
      }
      i := i + 1;
    }
    assert scanned < |items| ==> lastVisibleIndex + 1 == FirstStartingAfter(items, getRange, end, scanned);

    assert firstVisibleIndex <= lastVisibleIndex + 1 <= |items|;

    visibleItems := [];
    var j := firstVisibleIndex;
    while j <= lastVisibleIndex
      invariant firstVisibleIndex <= j <= lastVisibleIndex + 1
      invariant visibleItems == items[firstVisibleIndex..j]
    {
      visibleItems := visibleItems + [items[j]];
      j := j + 1;
    }
  }

  /** The items' ranges follow each other without gaps, each with a non-negative size. */
  ghost predicate Contiguous<T>(items: seq<T>, getRange: T -> Range) {
    && (forall k :: 0 <= k < |items| ==> getRange(items[k]).size >= 0)
    && (forall k :: 0 < k < |items| ==> FollowsPrevious(items, getRange, k))
  }

  /** Item `k` starts where item `k - 1` ends. */
  ghost predicate FollowsPrevious<T>(items: seq<T>, getRange: T -> Range, k: nat)
    requires 0 < k < |items|
  {
    getRange(items[k]).start == ScanEnd(getRange(items[k - 1]))
  }

  /** The range of `x` ends after `start` and begins no later than `windowEnd`. */
  predicate Overlaps<T>(x: T, getRange: T -> Range, start: int, windowEnd: int) {
    ScanEnd(getRange(x)) > start && getRange(x).start <= windowEnd
  }

  /** Reference definition: the items overlapping the window, in list order. */
  function Overlapping<T>(items: seq<T>, getRange: T -> Range, start: int, windowEnd: int): seq<T> {
    if |items| == 0 then []
    else
      (if Overlaps(items[0], getRange, start, windowEnd) then [items[0]] else [])
      + Overlapping(items[1..], getRange, start, windowEnd)
  }

  lemma {:induction false} OverlappingDistributes<T>(a: seq<T>, b: seq<T>, getRange: T -> Range, start: int, windowEnd: int)
    ensures Overlapping(a + b, getRange, start, windowEnd)
         == Overlapping(a, getRange, start, windowEnd) + Overlapping(b, getRange, start, windowEnd)
  {
    if |a| > 0 {
      assert (a + b)[1..] == a[1..] + b;
      OverlappingDistributes(a[1..], b, getRange, start, windowEnd);
    } else {
      assert a + b == b;
    }
  }

  lemma {:induction false} OverlappingAllOrNone<T>(a: seq<T>, getRange: T -> Range, start: int, windowEnd: int, keep: bool)
    requires forall k :: 0 <= k < |a| ==> Overlaps(a[k], getRange, start, windowEnd) == keep
    ensures Overlapping(a, getRange, start, windowEnd) == if keep then a else []
  {
    if |a| > 0 {
      OverlappingAllOrNone(a[1..], getRange, start, windowEnd, keep);
    }
  }

  /** In a contiguous layout both starts and ends only grow along the list. */
  lemma {:induction false} ContiguousIsMonotone<T>(items: seq<T>, getRange: T -> Range, i: nat, j: nat)
    requires Contiguous(items, getRange)
    requires i <= j < |items|
    ensures getRange(items[i]).start <= getRange(items[j]).start
    ensures ScanEnd(getRange(items[i])) <= ScanEnd(getRange(items[j]))
  {
    if i < j {
      ContiguousIsMonotone(items, getRange, i, j - 1);
      assert FollowsPrevious(items, getRange, j);
    }
  }

  /**
   * For gapless ranges with non-negative sizes, and provided some item ends
   * after `start`, the scan returns exactly the items that end after `start`
   * and start no later than the window end.
   */
  lemma VisibleItemsAreOverlapping<T>(items: seq<T>, getRange: T -> Range, start: int, size: int)
    requires Contiguous(items, getRange)
    requires exists k :: 0 <= k < |items| && ScanEnd(getRange(items[k])) > start
    ensures VisibleItems(items, getRange, start, size) == Overlapping(items, getRange, start, start + size)
  {
    var windowEnd := start + size;
    var f := FirstEndingAfter(items, getRange, start, 0);
    assert f < |items|;
    var t := FirstStartingAfter(items, getRange, windowEnd, f);
    OverlappingOfWindow(items, getRange, start, windowEnd, f, t);
  }

  /** Overlapping splits at the two scan indices into nothing, everything, nothing. */
  lemma OverlappingOfWindow<T>(items: seq<T>, getRange: T -> Range, start: int, windowEnd: int, f: nat, t: nat)
    requires Contiguous(items, getRange)
    requires f <= t <= |items| && f < |items|
    requires forall k :: 0 <= k < f ==> ScanEnd(getRange(items[k])) <= start
    requires ScanEnd(getRange(items[f])) > start
    requires forall k :: f <= k < t ==> getRange(items[k]).start <= windowEnd
    requires t < |items| ==> getRange(items[t]).start > windowEnd
    ensures Overlapping(items, getRange, start, windowEnd) == items[f..t]
  {
    var before, inside, after := items[..f], items[f..t], items[t..];
    forall k | 0 <= k < |before|
      ensures !Overlaps(before[k], getRange, start, windowEnd)
    {
      assert before[k] == items[k];
    }
    forall k | 0 <= k < |inside|
      ensures Overlaps(inside[k], getRange, start, windowEnd)
    {
      assert inside[k] == items[f + k];
      ContiguousIsMonotone(items, getRange, f, f + k);
    }
    forall k | 0 <= k < |after|
      ensures !Overlaps(after[k], getRange, start, windowEnd)
    {
      assert after[k] == items[t + k];
      ContiguousIsMonotone(items, getRange, t, t + k);
    }
    OverlappingOfThreeParts(before, inside, after, getRange, start, windowEnd);
    assert items == before + inside + after;
  }

  lemma OverlappingOfThreeParts<T>(before: seq<T>, inside: seq<T>, after: seq<T>, getRange: T -> Range, start: int, windowEnd: int)
    requires forall k :: 0 <= k < |before| ==> !Overlaps(before[k], getRange, start, windowEnd)
    requires forall k :: 0 <= k < |inside| ==> Overlaps(inside[k], getRange, start, windowEnd)
    requires forall k :: 0 <= k < |after| ==> !Overlaps(after[k], getRange, start, windowEnd)
    ensures Overlapping(before + inside + after, getRange, start, windowEnd) == inside
  {
    OverlappingAllOrNone(before, getRange, start, windowEnd, false);
    OverlappingAllOrNone(inside, getRange, start, windowEnd, true);
    OverlappingAllOrNone(after, getRange, start, windowEnd, false);
    OverlappingDistributes(before, inside, getRange, start, windowEnd);
    OverlappingDistributes(before + inside, after, getRange, start, windowEnd);
  }

  /** Five rows of height 30 seen through a 62-pixel window at offset 0: rows 0, 1 and 2. */
  lemma FiveRowsExample()
    ensures VisibleItems([0, 1, 2, 3, 4], (i: int) => Range(30 * i, 30, 30 * i + 30), 0, 62) == [0, 1, 2]
  {
    var rows := [0, 1, 2, 3, 4];
    var getRange := (i: int) => Range(30 * i, 30, 30 * i + 30);
    VisibleItemsIsWindow(rows, getRange, 0, 62, 0, 3);
  }

  /** The window end is inclusive: with the window `[0, 60]`, the row starting at 60 is shown. */
  lemma RowStartingAtWindowEndIsShown()
    ensures VisibleItems([0, 1, 2, 3, 4], (i: int) => Range(30 * i, 30, 30 * i + 30), 0, 60) == [0, 1, 2]
  {
    var rows := [0, 1, 2, 3, 4];
    var getRange := (i: int) => Range(30 * i, 30, 30 * i + 30);
    VisibleItemsIsWindow(rows, getRange, 0, 60, 0, 3);
  }
}

=== FILE: wrappers.dfy ===
/** Failure-carrying wrappers used across the model. */
module Wrappers {

  /** JavaScript `undefined` versus a present value. */
  datatype Option<+T> = None | Some(value: T) {

    /** `x ?? fallback` */
    function GetOr(fallback: T): T {
      match this
      case Some(v) => v
      case None => fallback
    }
  }

  /** A computation that either returns a value or throws. */
  datatype Result<+T> = Success(value: T) | Failure(error: string) {

    predicate IsFailure() {
      Failure?
    }

    function PropagateFailure<U>(): Result<U>
      requires Failure?
    {
      Failure(error)
    }

    function Extract(): T
      requires Success?
    {
      value
    }
  }

  /** The message JavaScript raises when a property is read from `undefined`. */
  const UndefinedPropertyRead: string := "TypeError: cannot read properties of undefined"
}
